=== FILE: README.md ===
# mtp-filler, modelled in Dafny

mtp-filler fills the storage of a phone or other MTP (Media Transfer
Protocol) device until only a chosen amount of space is left. The core is the
same on both platforms:

1. pick a device and one of its storages;
2. read that storage's free space;
3. ask the user how much space to leave;
4. write a local filler file of random bytes as large as the difference;
5. push the file to the storage;
6. offer to delete the local copy;
7. read the free space again and report it.

The Unix driver talks to libmtp and the Windows driver to Windows Portable
Devices (WPD).

The model is a set of pure functions. Every foreign call is an oracle value
in an `Env` datatype: device detection and opening, the storage list, WPD
property reads, the push, the filesystem's failures, and the answers at each
prompt. One `Env` fixes one run, and the contracts hold for every `Env`. A
run is recorded as a `Drive.RunResult`, which holds:

- how many steps of the fixed order it entered;
- its outcome: `Finished(remaining free space)` or `Failed(error)`;
- the local filesystem it leaves behind;
- a trace of the values passed between steps (storage id, free space before,
  filler size, storage pushed to, length pushed, storage re-read).

A Rust `?` that fails ends the run at that step with the error. A Rust panic
(an `unwrap` or `expect` on an error, an index out of bounds, an unsigned
subtraction that underflows) becomes an `Error.Panic(reason)` outcome.

Each driver's `run` is also written out a second time as the source writes
it, a chain of `?` cut after any step (`Unix.Chain`, `Windows.Chain`). The
`RunFollowsChain` lemmas prove that a step succeeds in the recorded run
exactly when the chain up to it succeeds, and that a failed run carries the
error of the first step that fails.

Modules:

- `Results`: `Option` and `Result` with failure propagation.
- `Bytes`: `u32`/`u64` as subset types, and checked subtraction.
- `Errors`: one constructor per error the core can return.
- `LocalFs`: paths as component sequences, the filesystem as a map, plus
  `canonicalize` and `remove_file`.
- `Filler`: `src/shared.rs`.
- `Decimal`: `str::parse::<u64>`.
- `Drive`: the step order shared by both drivers.
- `Unix`: `src/unix.rs`.
- `Windows`: `src/windows.rs`.

Where this model follows the code and a plain reading of the tool's design
might expect otherwise:

- **No cleanup on failure.** When the push fails, the run ends before the
  delete prompt, and the filler stays on disk at full length
  (`Unix.FailedPushSkipsDelete`, `Windows.FailedPushSkipsDelete`). When
  creating the filler fails, the run ends at once.
- **The 1024-byte minimum is on the free space to leave**, not on the filler.
  An accepted answer can leave a filler of a single byte
  (`Filler.AcceptedSizeIsPositive` states the exact range).
- **Write errors panic.** A write error hits `unwrap` (src/shared.rs:66); it
  is not returned as an error, and the partly written filler stays on disk
  (`Filler.CreateFillerFile`). On Unix a failed flush of standard output in
  the push's progress callback panics too (src/unix.rs:94, `Unix.SendFile`).
- **No empty-list check on Unix.** The Unix `select_device` does not check
  for an empty device list; the Windows one does, before any prompt.
- **Windows can panic while listing storages.** The Windows `select_storage`
  panics if any storage's capacity or free space cannot be read, even one the
  user would not have picked.
- **No refresh on Windows.** The Windows driver does not refresh anything
  before the final read. The Unix driver calls `update_storage` first, and its
  final figure comes from the refreshed list.
- **The progress counter overshoots.** It advances by a whole buffer per
  chunk, so it ends at or above the bytes written, by less than one buffer
  (`Filler.WriteChunks`).

## Model

| member | source | states |
|---|---|---|
| Bytes.CheckedSub | src/shared.rs:47 | the difference exists exactly when the subtrahend is not larger, and adding it back gives the minuend |
| LocalFs.FileName | src/unix.rs:104-106 | a path has a file name exactly when its last component is a normal name, and that name is it |
| LocalFs.Resolve | src/shared.rs:53 | resolving against an absolute working directory gives an absolute path, leaves absolute paths alone and keeps the file name |
| LocalFs.Canonicalize | src/windows.rs:110 | succeeds exactly when the filesystem does not fail and a file exists at the resolved path; the result is that absolute path |
| LocalFs.RemoveFile | src/shared.rs:85 | succeeds exactly when the file exists and the filesystem does not fail; removes that path and leaves every other file unchanged |
| Filler.Validate | src/shared.rs:30-42 | accepts exactly the answers that parse and lie in [1024, current free); says which test failed for every other answer, with the too-large test first |
| Filler.ValidationBoundaries | src/shared.rs:32-38 | keeping all of the free space is refused, keeping one byte less is accepted, 1024 is accepted and 1023 refused |
| Filler.PromptDesired | src/shared.rs:28-45 | the result is the first accepted answer, every earlier answer having been refused; the prompt fails exactly when every answer is refused |
| Filler.FillerSize | src/shared.rs:47 | the filler size plus the desired free space is the current free space; a subtraction that would underflow is a panic |
| Filler.AcceptedSizeIsPositive | src/shared.rs:32-47 | for any accepted answer the subtraction does not underflow, and the filler is between 1 byte and the free space minus 1024 |
| Filler.ToUsize | src/shared.rs:48 | the conversion succeeds exactly when the size fits the target's usize, and keeps the value |
| Filler.ChunkPlanTotal | src/shared.rs:60-70 | the chunk lengths the write loop produces add up to the filler size |
| Filler.ChunkPlanBounds | src/shared.rs:62-64 | every chunk has 1 to 1024 bytes |
| Filler.ChunkPlanCount | src/shared.rs:62-68 | the loop runs the size divided by 1024, rounded up, times |
| Filler.ChunkPlanLast | src/shared.rs:63 | the last chunk is the size modulo 1024, or a full buffer when that is zero |
| Filler.ProgressBound | src/shared.rs:69 | the progress counter ends at least at the bytes written and less than one buffer above them |
| Filler.ProgressFitsU64 | src/shared.rs:57-69 | for any accepted answer the progress counter stays within u64 |
| Filler.WriteChunks | src/shared.rs:59-70 | the loop writes exactly the filler size, in the chunk plan above, with the chunk bounds, count, last chunk and progress bound |
| Filler.HandedOverFullBuffers | src/shared.rs:62-68 | before the write call numbered `i` (from zero) exactly `i` full buffers have been handed to the writer, fewer bytes than the filler |
| Filler.FillerPath | src/shared.rs:53 | the filler path is relative and its file name is the token followed by `_filler.txt` |
| Filler.CreateFillerFile | src/shared.rs:26-73 | succeeds exactly when the prompt yields an answer, the size fits usize, the file can be created and no write fails; the filler plus the answer is the free space; on success the filesystem gains exactly that file, at full length; a file that cannot be created is an error that changes nothing; a failed write panics and leaves only that file changed, no longer than the full buffers handed over before the failing call; every other failure leaves the filesystem as it was |
| Filler.DeleteFillerFile | src/shared.rs:75-88 | a failed prompt is an error, a no changes nothing, a yes removes the file or fails; the filler is gone exactly when the user confirmed, and no other file changes |
| Decimal.ParseU64 | src/windows.rs:28 | accepts exactly an optional `+` followed by one or more digits whose value fits u64, and returns that value |
| Decimal.ParseRender | src/windows.rs:28 | the decimal text of any u64, with or without a leading `+`, reads back as that u64 |
| Decimal.ParseRenderOverflow | src/windows.rs:28 | the decimal text of a number above u64::MAX is refused |
| Decimal.NonNumericRefused | src/windows.rs:28 | any character that is neither a digit nor a leading `+` makes the text an error |
| Decimal.EmptyRefused | src/windows.rs:28 | the empty text and a lone `+` are errors |
| Unix.LabelSwapsIds | src/unix.rs:22-28 | the device list prints the product id after `VID:` and the vendor id after `PID:` |
| Unix.DeviceList | src/unix.rs:19-29 | the corrected list has one entry per device, in order, each showing that device's names and ids under their own labels |
| Unix.ListTellsIdsApart | src/unix.rs:19-29 | devices that differ in an id get different entries |
| Unix.SelectDevice | src/unix.rs:17-44 | succeeds exactly when detection works, the answer names a device and that device opens, and returns the opened device; it has no separate empty-list error |
| Unix.NoDeviceNoSelection | src/unix.rs:18-41 | with no device detected, no answer selects one |
| Unix.SelectStorage | src/unix.rs:46-68 | returns the id of the storage at the chosen index; an out-of-range index panics and a failed prompt is an error |
| Unix.ById | src/unix.rs:72 | finds a storage exactly when one in the list has that id, and returns one with that id |
| Unix.GetFreeSpace | src/unix.rs:70-75 | succeeds exactly when the device lists a storage with that id, and returns that storage's free space |
| Unix.ProgressCallback | src/unix.rs:91-96 | the progress callback never cancels: it continues exactly when the flush works and panics when it fails |
| Unix.NeverCancelled | src/unix.rs:87-97 | no transfer is cancelled from the callback: it panics exactly when some flush fails, and is otherwise decided by the transport, however many progress reports it makes |
| Unix.SendFile | src/unix.rs:77-99 | the push succeeds exactly when the storage id still resolves, every flush works and the transport succeeds; an unknown id, a failed flush and a failed transport each give their own error, checked in that order |
| Unix.GetMetadata | src/unix.rs:101-115 | the metadata carries the file's length, modification time and Unicode name, with the Unknown type; each failure is reported in the source's order |
| Unix.UpdateStorage | src/unix.rs:126 | the refresh succeeds exactly when the device answers, and the device then lists the refreshed storages |
| Unix.PushAndReport | src/unix.rs:124-127 | the delete prompt comes only after a successful push; a failed push leaves the filesystem as it was; a finished run reports a fresh read of the refreshed list, removed the filler exactly on a yes, and on a no left the filesystem as it was |
| Unix.FillAndReport | src/unix.rs:121-127 | the filler plus the answer at the prompt is the free space read, and the filler is between 1 byte and that free space minus 1024; the length pushed is the filler's; the delete prompt comes only after a push that succeeds; a failed push leaves the filler on disk at full length; a finished run changed no other file and created none, and a filler it kept is whole |
| Unix.Run | src/unix.rs:117-133 | the run stops at the first step exactly when no device is selected; every step addresses the storage picked on the opened device; the filler plus the answer is that storage's free space; the delete prompt comes only after a push that succeeds; the report is a fresh read of the refreshed list; the filler is deleted exactly on a yes and is whole when kept; no other file changes or appears |
| Unix.PushFollowsChain | src/unix.rs:124-127 | from the push on, each step succeeds in the run exactly when the chain of `?` up to it succeeds, and a failed run carries the chain's error |
| Unix.FillFollowsChainEarly | src/unix.rs:121-123 | from the filler to the metadata, each step succeeds in the run exactly when the chain up to it succeeds, and a run that fails there carries the chain's error |
| Unix.FillFollowsChainLate | src/unix.rs:121-127 | from the push on, each step after the free-space read succeeds in the run exactly when the chain up to it succeeds, and a run that fails there carries the chain's error |
| Unix.RunFollowsChain | src/unix.rs:117-127 | each step succeeds in the run exactly when every step up to it succeeds in the chain of `?`, each fed by the ones before; a failed run carries the error of the first step that fails |
| Unix.NoDeviceEndsRun | src/unix.rs:118 | with no device detected the run fails at its first step |
| Unix.FailedPushSkipsDelete | src/unix.rs:121-125 | when the push fails the run ends at the push, never offers deletion, and leaves the filler on disk at full length |
| Unix.SampleFill | src/unix.rs:121-127 | from 1,000,000,000 bytes free with 900,000,000 to keep, a 100,000,000-byte filler is created, pushed in full and deleted, and the refreshed figure is reported |
| Unix.SampleRun | src/unix.rs:117-133 | with 1,000,000,000 bytes free and 900,000,000 to keep, the run pushes a 100,000,000-byte filler, deletes it, and reports the refreshed figure |
| Windows.GetBytesFromProperty | src/windows.rs:17-31 | succeeds exactly when the content opens, the object and property exist, and the property is text that parses as u64; returns the parsed value |
| Windows.PropertyRoundTrip | src/windows.rs:27-29 | a property holding the decimal text of a u64 reads as that u64 |
| Windows.NonNumericPropertyRefused | src/windows.rs:28 | a property with a non-numeric character is a parse error, not zero |
| Windows.GetCapacity | src/windows.rs:82-84 | succeeds exactly when the content opens, the object exists and its capacity property is the text of a u64, and returns that value; unopenable content and a missing object each give their own error |
| Windows.GetFreeSpace | src/windows.rs:86-88 | succeeds exactly when the content opens, the object exists and its free-space property is the text of a u64, and returns that value; unopenable content and a missing object each give their own error |
| Windows.CapacityAndFreeSpaceDifferOnlyInKey | src/windows.rs:82-88 | swapping the two property values swaps the capacity and free-space results |
| Windows.SelectDevice | src/windows.rs:33-55 | succeeds exactly when enumeration works, the answer names a device and it opens; an empty list is its own error |
| Windows.EmptyListRefusedWithoutPrompt | src/windows.rs:37-39 | an empty device list is refused whatever the prompt would answer |
| Windows.AllListable | src/windows.rs:61-72 | the listing gets through exactly when every child's capacity and free space read |
| Windows.SelectStorage | src/windows.rs:57-80 | succeeds exactly when the content and root read, every child can be listed and the answer is in range; returns that child's id; an unreadable child panics |
| Windows.SendFile | src/windows.rs:90-103 | the push succeeds exactly when the content opens, the storage object exists and the transfer succeeds |
| Windows.PushAndReport | src/windows.rs:111-113 | the delete prompt comes only after a successful push; a failed push leaves the filesystem as it was; a finished run reports a fresh read of the device after the push, and on a no left the filesystem as it was |
| Windows.FillAndReport | src/windows.rs:109-113 | the filler plus the answer at the prompt is the free space read, and the filler is between 1 byte and that free space minus 1024; the length pushed is the filler's; the delete prompt comes only after a push that succeeds; a failed push leaves the filler on disk at full length; a finished run changed no other file and created none, and a filler it kept is whole |
| Windows.Run | src/windows.rs:105-119 | an empty device list ends the run at once; every step addresses the storage picked on the opened device; the filler plus the answer is the free space read for it; the delete prompt comes only after a push that succeeds; the report is a fresh read of the device after the push; the filler is deleted exactly on a yes and is whole when kept; no other file changes or appears |
| Windows.PushFollowsChain | src/windows.rs:111-113 | from the push on, each step succeeds in the run exactly when the chain of `?` up to it succeeds, and a failed run carries the chain's error |
| Windows.FillFollowsChain | src/windows.rs:109-113 | from the filler on, each step succeeds in the run exactly when the chain up to it succeeds, and a failed run carries the chain's error |
| Windows.SelectionFollowsChain | src/windows.rs:106-108 | up to the first free-space read, each step succeeds in the run exactly when the chain up to it succeeds; a run that stops there fails every later step of the chain too, with the chain's error |
| Windows.LateFollowsChain | src/windows.rs:108-113 | once the free space has been read, each later step succeeds in the run exactly when the chain up to it succeeds, and a failed run carries the chain's error |
| Windows.RunFollowsChain | src/windows.rs:105-113 | each step succeeds in the run exactly when every step up to it succeeds in the chain of `?`, each fed by the ones before; a failed run carries the error of the first step that fails |
| Windows.FailedPushSkipsDelete | src/windows.rs:109-112 | when the transfer fails the run ends at the push, never offers deletion, and leaves the filler on disk at full length; a failed content or object lookup at the push is covered by `Windows.FillAndReport` and `Windows.RunFollowsChain` |
| Windows.SampleSelection | src/windows.rs:106-108 | on the sample device the one device opens, its one storage is listed and picked, and its free space reads 1,000,000,000 |
| Windows.SampleFill | src/windows.rs:109-113 | from the sample free space, a 100,000,000-byte filler is created, pushed in full and deleted, and the device's new figure is reported |
| Windows.SampleRun | src/windows.rs:105-119 | with 1,000,000,000 bytes free and 900,000,000 to keep, the run pushes a 100,000,000-byte filler, deletes it, and reports the device's new figure |

## Left out

- User interaction (dialoguer): each prompt is an answer or a failure given in `Env`. What the terminal shows is not modelled.
- Windows.SendFile: the three `println!` calls before `push_file` (src/windows.rs:98-100) panic when standard output cannot be written, which would stop the push before the transfer; standard output is taken to be writable there.
- Unix.Run: the success message (src/unix.rs:128-131) is a `println!`, which panics when standard output cannot be written; a run the model reports as `Finished` is taken to print it.
- Windows.Run: the same holds for its success message (src/windows.rs:114-117).
- Filler.PromptDesired: the answers are given already parsed by the byte-quantity parser. Parsing and display of `ByteSize` (units, "10MiB") are not modelled. A blank answer is taken to be the default, 10 MiB, and to go through the same validator.
- The progress bars (indicatif) and their template error are not modelled, except for the counter's final value.
- The random bytes and the random UUID in the file name: the bytes do not affect any property. The UUID is a `token` given in `Env`, and its uniqueness, which keeps an existing file from being overwritten, is not modelled.
- Filler.WriteChunks: each `write` is taken to accept the whole chunk; a short write is not modelled. An error when the buffered writer flushes on drop is not modelled either, since the source ignores it.
- Filler.CreateFillerFile: "at full length" on success assumes the buffered writer's final flush, made when it is dropped at the end of `create_filler_file` (src/shared.rs:72-73), succeeds; the source ignores an error there, so the file on disk could be shorter. Both drivers' "the length pushed is the filler's" rests on this.
- Filler.CreateFillerFile: how many of the bytes handed over before a failed write reach the disk depends on the writer's buffering; it is an oracle value in `Env`, bounded by what was handed over.
- Filler.FillerSize: the source's `ByteSize` subtraction panics on underflow in a debug build and wraps in a release build. The model has the panic. The validator makes the case unreachable, as `Filler.AcceptedSizeIsPositive` shows.
- Filler.ToUsize: the target's `usize` width is a parameter.
- LocalFs.Canonicalize: `..` components and symbolic links are not resolved. The path given is always `./<token>_filler.txt`.
- The MTP and WPD transports themselves: detection, opening, the storage list, property reads and the push are oracle values. Unix.SendFile takes the push's progress reports and its success from `Env`.
- Unix.UpdateStorage: its sort argument is not modelled, since it does not change which storages are listed.
- Windows.SelectDevice: `Provider::new` and `enumerate_devices` are one oracle, and so are the two errors they can raise.
- Windows.SelectStorage: failing to open the content, the root or its children is one error. Every capacity and free-space read made while listing the storages sees the device as it was opened; the device can change between the listing, the free-space read, the push and the final read, and each of those sees its own value in `Env`.
- Unix.DeviceList: only which value is shown after which label is modelled, not the text layout. The Windows list shows only the friendly name.
- `make_progres_bar` (src/shared.rs:16-24) and the entry point in src/main.rs, which picks the driver for the platform, are not part of this model.

## Findings

| source | as written | input that shows it | evidently intended | confidence | as-written member | corrected member |
|---|---|---|---|---|---|---|
| src/unix.rs:25-26 | the device list prints `entry.product_id` after `VID:` and `entry.vendor_id` after `PID:` | a device with vendor id 0x18D1 and product id 0x4EE1 is listed as `VID: 20193, PID: 6353` | the vendor id after `VID:` and the product id after `PID:` | high (not executed) | Unix.LabelSwapsIds | Unix.DeviceList |

=== FILE: bytes.dfy ===
/** Fixed-width unsigned integers of the source, as subsets of `int`. */
module Bytes {
  import opened Results

  const U32_MAX: int := 0xFFFF_FFFF
  const U64_MAX: int := 0xFFFF_FFFF_FFFF_FFFF

  type u32 = x: int | 0 <= x <= U32_MAX
  type u64 = x: int | 0 <= x <= U64_MAX

  /** Unsigned subtraction `a - b` that reports an underflow instead of
      wrapping (a debug build of the source panics there). */
  function CheckedSub(a: u64, b: u64): (r: Option<u64>)
    ensures r.Some? <==> b <= a
    ensures r.Some? ==> r.value + b == a
  {
    if b <= a then Some(a - b) else None
  }
}

=== FILE: decimal.dfy ===
/** Decimal text to `u64`, as Rust's `str::parse::<u64>` reads it: an optional
    leading `+`, then at least one ASCII digit and nothing else; leading zeros
    are allowed; a value above `u64::MAX` is an error. The Windows driver reads
    storage sizes this way from the device's property strings. */
module Decimal {
  import opened Results
  import opened Bytes
  import opened Errors

  predicate IsDigit(c: char) {
    '0' <= c <= '9'
  }

  predicate AllDigits(s: string) {
    forall i :: 0 <= i < |s| ==> IsDigit(s[i])
  }

  function DigitValue(c: char): nat
    requires IsDigit(c)
  {
    (c as int) - ('0' as int)
  }

  /** The number a digit string denotes, most significant digit first. */
  function Value(s: string): nat
    requires AllDigits(s)
  {
    if |s| == 0 then 0 else Value(s[..|s| - 1]) * 10 + DigitValue(s[|s| - 1])
  }

  /** The digits after an optional leading `+`. */
  function Digits(s: string): string {
    if |s| > 0 && s[0] == '+' then s[1..] else s
  }

  /** The strings `parse::<u64>` accepts. */
  predicate IsU64Text(s: string) {
    var d := Digits(s);
    |d| > 0 && AllDigits(d) && Value(d) <= U64_MAX
  }

  function ParseU64(s: string): (r: Result<u64, Error>)
    ensures r.Success? <==> IsU64Text(s)
    ensures r.Success? ==> r.value == Value(Digits(s))
    ensures r.Failure? ==> r.error == ParseInt
  {
    var d := Digits(s);
    if |d| == 0 || !AllDigits(d) then Failure(ParseInt)
    else if Value(d) > U64_MAX then Failure(ParseInt)
    else Success(Value(d))
  }

  function DigitChar(n: nat): (c: char)
    requires n < 10
    ensures IsDigit(c) && DigitValue(c) == n
  {
    ('0' as int + n) as char
  }

  /** The shortest decimal text of `n`, the form a device reports. */
  function Render(n: nat): string
    decreases n
  {
    if n < 10 then [DigitChar(n)] else Render(n / 10) + [DigitChar(n % 10)]
  }

  lemma {:induction false} RenderIsDigits(n: nat)
    ensures |Render(n)| > 0 && AllDigits(Render(n)) && Value(Render(n)) == n
  {
    if n >= 10 {
      RenderIsDigits(n / 10);
      var s := Render(n);
      assert s[..|s| - 1] == Render(n / 10);
    }
  }

  /** Reading back the decimal text of any u64 gives that u64, with or
      without a leading `+`. */
  lemma ParseRender(n: u64)
    ensures ParseU64(Render(n)) == Success(n)
    ensures ParseU64("+" + Render(n)) == Success(n)
  {
    RenderIsDigits(n);
    assert Digits("+" + Render(n)) == Render(n);
  }

  /** The decimal text of a number above `u64::MAX` is refused. */
  lemma ParseRenderOverflow(n: nat)
    requires n > U64_MAX
    ensures ParseU64(Render(n)) == Failure(ParseInt)
  {
    RenderIsDigits(n);
  }

  /** A character that is neither a digit nor the one leading `+` makes the
      text an error; so does the empty text. */
  lemma NonNumericRefused(s: string, i: nat)
    requires i < |s| && !IsDigit(s[i]) && !(i == 0 && s[0] == '+')
    ensures ParseU64(s) == Failure(ParseInt)
  {
    if s[0] == '+' {
      assert Digits(s)[i - 1] == s[i];
    }
  }

  lemma EmptyRefused()
    ensures ParseU64("") == Failure(ParseInt)
    ensures ParseU64("+") == Failure(ParseInt)
  {
  }
}

=== FILE: drive.dfy ===
/** What both drivers' `run` have in common: a fixed, strictly linear order
    of fallible steps, where the first step that fails ends the run with its
    error (Rust's `?`) and nothing after it is attempted. A run is recorded as
    the number of steps it entered, its outcome, the local filesystem it
    leaves, and the values that flowed between its steps. */
module Drive {
  import opened Results
  import opened Errors
  import opened LocalFs

  datatype Step =
    | SelectDevice
    | SelectStorage
    | ReadFreeSpace
    | CreateFiller
    | Canonicalize
    | ReadMetadata
    | SendFile
    | DeleteFiller
    | UpdateStorage
    | ReadRemainingFreeSpace

  /** `Finished` carries the free space printed in the success message. */
  datatype Outcome = Finished(remainingFree: nat) | Failed(error: Error)

  /** The values passed from step to step, as far as the run got: the
      storage picked, the free space read before the filler was made, the
      filler's size, the storage pushed to and the length pushed, and the
      storage whose free space was read at the end. */
  datatype Trace<Id> = Trace(
    storage: Option<Id>,
    freeBefore: Option<nat>,
    fillerSize: Option<nat>,
    sentTo: Option<Id>,
    sentSize: Option<nat>,
    requeried: Option<Id>)

  datatype RunResult<Id> = RunResult(entered: nat, outcome: Outcome, fs: Fs, trace: Trace<Id>)

  /** A run of a linear driver: it entered a non-empty prefix of `order`, and
      it finished only after entering every step. Which steps count as
      succeeded follows from this shape (`Succeeded`); that the shape matches
      the inputs is stated per driver, against its chain of `?`. */
  predicate WellFormed<Id>(r: RunResult<Id>, order: seq<Step>) {
    && 0 < r.entered <= |order|
    && (r.outcome.Finished? ==> r.entered == |order|)
  }

  /** The steps the run entered, in order. */
  function Steps<Id>(r: RunResult<Id>, order: seq<Step>): seq<Step>
    requires WellFormed(r, order)
  {
    order[..r.entered]
  }

  predicate Reached<Id>(r: RunResult<Id>, order: seq<Step>, step: Step)
    requires WellFormed(r, order)
  {
    step in Steps(r, order)
  }

  /** Whether the step at position `i` of the order ran and succeeded. */
  predicate Succeeded<Id>(r: RunResult<Id>, order: seq<Step>, i: nat)
    requires WellFormed(r, order)
  {
    i < r.entered - 1 || (i == r.entered - 1 && r.outcome.Finished?)
  }

  /** The step that ended a failed run. */
  function FailingStep<Id>(r: RunResult<Id>, order: seq<Step>): Step
    requires WellFormed(r, order) && r.outcome.Failed?
  {
    order[r.entered - 1]
  }
}

=== FILE: errors.dfy ===
/** The errors a run can end with. The source reports them through `anyhow`
    with a context message; the model keeps one constructor per distinct cause.
    A Rust panic (an `unwrap` or `expect` on a failure, an out-of-range slice
    index, an unsigned underflow) ends the process too, and is kept as
    `Panic`. */
module Errors {

  datatype PanicReason = IndexOutOfBounds | UnwrapOnError | ExpectOnError | SubtractionUnderflow

  datatype Error =
    | DeviceEnumeration   // the transport could not list devices
    | NoDevicesAttached   // the Windows driver's explicit empty-list check
    | DeviceNotSelected   // the chosen index names no device
    | DeviceOpen          // the chosen device could not be opened
    | Prompt              // an interactive prompt failed or was abandoned
    | StorageNotFound     // a storage id does not resolve in the pool
    | ContentUnavailable  // the device's content tree could not be read
    | ObjectNotFound      // an object id does not resolve on the device
    | PropertyUnavailable // an object property could not be fetched
    | PropertyNotText     // a property string is not valid text
    | ParseInt            // a property string is not a decimal u64
    | UsizeConversion     // the filler size does not fit a usize
    | FileCreate          // the filler file could not be created
    | CanonicalizeFailed  // the filler path could not be made absolute
    | MetadataUnavailable // the filesystem could not stat the file
    | ModificationTime    // the platform gives no modification time
    | NoFileName          // the path has no final name component
    | FileNameNotUnicode  // the final name component is not valid Unicode
    | TransferFailed      // the device transport failed during the push
    | TransferCancelled   // the progress callback asked to stop the push
    | RemoveFailed        // the filler file could not be deleted
    | UpdateStorageFailed // the device's storage list could not be refreshed
    | Panic(reason: PanicReason)
}

=== FILE: filler.dfy ===
/** The shared part of both drivers (src/shared.rs): asking for the free space
    to leave on the device, sizing the filler file, writing it in bounded
    chunks, and the confirm-then-delete cleanup. */
module Filler {
  import opened Results
  import opened Bytes
  import opened Errors
  import opened LocalFs

  /** The writer's chunk size; also the smallest free space the user may ask
      to keep. */
  const BUFFER_SIZE: nat := 1024

  /** The prompt's default answer, "10MiB". */
  const DEFAULT_DESIRED: u64 := 10 * 1024 * 1024

  /** One answer at the desired-free-space prompt, after the byte-quantity
      parser: `Typed(Some(n))` parsed to `n` bytes, `Typed(None)` did not
      parse, `Blank` (just Enter) takes the default answer. */
  datatype Entry = Typed(parsed: Option<u64>) | Blank

  /** Why the prompt's validator turned an answer down. */
  datatype Rejection = Unparsable | NotBelowFree | BelowMinimum

  /** The bound on the free space to leave: at least one buffer, and strictly
      less than what is free now, so that the filler is not empty. */
  predicate Acceptable(currentFree: u64, desired: u64) {
    BUFFER_SIZE <= desired < currentFree
  }

  function EntryBytes(e: Entry): Option<u64> {
    match e
    case Typed(parsed) => parsed
    case Blank => Some(DEFAULT_DESIRED)
  }

  /** The prompt's validator. The "not below the free space" test comes first,
      so an answer that fails both tests is reported as too large. */
  function Validate(currentFree: u64, e: Entry): (r: Result<u64, Rejection>)
    ensures r.Success? <==> EntryBytes(e).Some? && Acceptable(currentFree, EntryBytes(e).value)
    ensures r.Success? ==> r.value == EntryBytes(e).value
    ensures r == Failure(Unparsable) <==> EntryBytes(e).None?
    ensures r == Failure(NotBelowFree) <==> EntryBytes(e).Some? && EntryBytes(e).value >= currentFree
    ensures r == Failure(BelowMinimum) <==>
              EntryBytes(e).Some? && EntryBytes(e).value < currentFree && EntryBytes(e).value < BUFFER_SIZE
  {
    match EntryBytes(e)
    case None => Failure(Unparsable)
    case Some(desired) =>
      if desired >= currentFree then Failure(NotBelowFree)
      else if desired < BUFFER_SIZE then Failure(BelowMinimum)
      else Success(desired)
  }

  /** The exact edges of the validator: keeping all of the free space is
      refused, keeping one byte less is accepted, 1024 bytes is the smallest
      accepted answer and 1023 bytes is refused. */
  lemma ValidationBoundaries(currentFree: u64)
    ensures Validate(currentFree, Typed(Some(currentFree))) == Failure(NotBelowFree)
    ensures currentFree - 1 >= BUFFER_SIZE ==>
              Validate(currentFree, Typed(Some(currentFree - 1))) == Success(currentFree - 1)
    ensures BUFFER_SIZE < currentFree ==>
              Validate(currentFree, Typed(Some(BUFFER_SIZE))) == Success(BUFFER_SIZE)
    ensures Validate(currentFree, Typed(Some(BUFFER_SIZE - 1))).Failure?
  {
  }

  /** The desired-free-space prompt. A rejected answer does not end the run:
      the prompt shows the reason and asks again, so the result is the first
      accepted answer. Running out of answers stands for the prompt itself
      failing (closed input). */
  function PromptDesired(currentFree: u64, entries: seq<Entry>): (r: Result<u64, Error>)
    ensures r.Success? ==> Acceptable(currentFree, r.value)
    ensures r.Success? ==>
              (exists i :: 0 <= i < |entries| && Validate(currentFree, entries[i]) == Success(r.value) &&
                 (forall j :: 0 <= j < i ==> Validate(currentFree, entries[j]).Failure?))
    ensures r.Failure? <==> forall i :: 0 <= i < |entries| ==> Validate(currentFree, entries[i]).Failure?
    ensures r.Failure? ==> r.error == Prompt
  {
    if |entries| == 0 then Failure(Prompt)
    else match Validate(currentFree, entries[0])
      case Success(desired) => Success(desired)
      case Failure(_) =>
        var rest := PromptDesired(currentFree, entries[1..]);
        assert forall k :: 0 <= k < |entries| - 1 ==> entries[1..][k] == entries[k + 1];
        assert rest.Success? ==>
          (exists i :: 0 <= i < |entries| && Validate(currentFree, entries[i]) == Success(rest.value) &&
             (forall j :: 0 <= j < i ==> Validate(currentFree, entries[j]).Failure?));
        rest
  }

  /** The filler size `current_free - desired`, an unsigned subtraction that
      panics on underflow. */
  function FillerSize(currentFree: u64, desired: u64): (r: Result<u64, Error>)
    ensures r.Success? <==> desired <= currentFree
    ensures r.Success? ==> r.value + desired == currentFree
    ensures r.Failure? ==> r.error == Panic(SubtractionUnderflow)
  {
    match CheckedSub(currentFree, desired)
    case Some(n) => Success(n)
    case None => Failure(Panic(SubtractionUnderflow))
  }

  /** Every answer the validator accepts yields a filler of at least one byte
      and at most the current free space less one buffer; the subtraction never
      underflows. */
  lemma AcceptedSizeIsPositive(currentFree: u64, desired: u64)
    requires Acceptable(currentFree, desired)
    ensures FillerSize(currentFree, desired).Success?
    ensures 0 < FillerSize(currentFree, desired).value <= currentFree - BUFFER_SIZE
  {
  }

  /** The conversion of the filler size to `usize`; it fails only when the
      target's `usize` is narrower than the value. */
  function ToUsize(n: u64, usizeMax: nat): (r: Result<nat, Error>)
    ensures r.Success? <==> n <= usizeMax
    ensures r.Success? ==> r.value == n
    ensures r.Failure? ==> r.error == UsizeConversion
  {
    if n <= usizeMax then Success(n) else Failure(UsizeConversion)
  }

  function Min(a: nat, b: nat): nat {
    if a <= b then a else b
  }

  /** The chunk lengths the writer loop produces for a file of `n` bytes, in
      order: each iteration writes `min(remaining, BUFFER_SIZE)` bytes. */
  function ChunkPlan(n: nat): seq<nat>
    decreases n
  {
    if n == 0 then [] else var c := Min(n, BUFFER_SIZE); [c] + ChunkPlan(n - c)
  }

  function Total(chunks: seq<nat>): nat {
    if |chunks| == 0 then 0 else chunks[0] + Total(chunks[1..])
  }

  /** The number of loop iterations for `n` bytes: `n / BUFFER_SIZE` rounded up. */
  function Iterations(n: nat): nat {
    (n + BUFFER_SIZE - 1) / BUFFER_SIZE
  }

  /** The length of the final chunk of a non-empty file: the remainder
      `n % BUFFER_SIZE`, or a whole buffer when that remainder is zero. */
  function LastChunk(n: nat): nat {
    if n % BUFFER_SIZE != 0 then n % BUFFER_SIZE else BUFFER_SIZE
  }

  /** The chunks add up to exactly the requested size. */
  lemma {:induction false} ChunkPlanTotal(n: nat)
    ensures Total(ChunkPlan(n)) == n
  {
    if n > 0 {
      ChunkPlanTotal(n - Min(n, BUFFER_SIZE));
    }
  }

  /** No chunk is empty and none is larger than the buffer. */
  lemma {:induction false} ChunkPlanBounds(n: nat)
    ensures forall i :: 0 <= i < |ChunkPlan(n)| ==> 1 <= ChunkPlan(n)[i] <= BUFFER_SIZE
  {
    if n > 0 {
      ChunkPlanBounds(n - Min(n, BUFFER_SIZE));
    }
  }

  /** The loop runs `ceil(n / BUFFER_SIZE)` times. */
  lemma {:induction false} ChunkPlanCount(n: nat)
    ensures |ChunkPlan(n)| == Iterations(n)
  {
    if n > 0 {
      ChunkPlanCount(n - Min(n, BUFFER_SIZE));
    }
  }

  /** The final chunk is the remainder, or a whole buffer when the size is a
      multiple of the buffer. */
  lemma {:induction false} ChunkPlanLast(n: nat)
    requires n > 0
    ensures ChunkPlan(n)[|ChunkPlan(n)| - 1] == LastChunk(n)
  {
    if n > BUFFER_SIZE {
      ChunkPlanLast(n - BUFFER_SIZE);
    }
  }

  /** The progress counter, `BUFFER_SIZE` per iteration, is never below the
      bytes written and exceeds them by less than one buffer. */
  lemma ProgressBound(n: nat)
    ensures n <= BUFFER_SIZE * Iterations(n) < n + BUFFER_SIZE
  {
  }

  /** For any accepted answer the progress counter stays within u64. */
  lemma ProgressFitsU64(currentFree: u64, desired: u64)
    requires Acceptable(currentFree, desired)
    ensures BUFFER_SIZE * Iterations(currentFree - desired) <= U64_MAX
  {
    ProgressBound(currentFree - desired);
  }

  /** The writer loop. `remaining` counts down from the filler size; each
      iteration hands `min(remaining, BUFFER_SIZE)` random bytes to the writer
      (taken in full: the count `write` returns is ignored), and advances the
      progress counter by a whole buffer whatever the chunk's length. The
      results are the chunk lengths, the bytes written and the final value of
      the progress counter. */
  method WriteChunks(fillerSize: nat) returns (chunks: seq<nat>, written: nat, progress: nat)
    ensures written == fillerSize
    ensures chunks == ChunkPlan(fillerSize)
    ensures Total(chunks) == written
    ensures forall i :: 0 <= i < |chunks| ==> 1 <= chunks[i] <= BUFFER_SIZE
    ensures |chunks| == Iterations(fillerSize)
    ensures fillerSize > 0 ==> chunks[|chunks| - 1] == LastChunk(fillerSize)
    ensures progress == BUFFER_SIZE * |chunks|
    ensures written <= progress < written + BUFFER_SIZE
  {
    chunks := [];
    written := 0;
    progress := 0;
    var remaining := fillerSize;
    while remaining > 0
      invariant written + remaining == fillerSize
      invariant chunks + ChunkPlan(remaining) == ChunkPlan(fillerSize)
      invariant progress == BUFFER_SIZE * |chunks|
      decreases remaining
    {
      var toWrite := Min(remaining, BUFFER_SIZE);
      assert ChunkPlan(remaining) == [toWrite] + ChunkPlan(remaining - toWrite);
      assert chunks + ChunkPlan(remaining) == (chunks + [toWrite]) + ChunkPlan(remaining - toWrite);
      chunks := chunks + [toWrite];
      written := written + toWrite;
      remaining := remaining - toWrite;
      progress := progress + BUFFER_SIZE;
    }
    ChunkPlanTotal(fillerSize);
    ChunkPlanBounds(fillerSize);
    ChunkPlanCount(fillerSize);
    ProgressBound(fillerSize);
    if fillerSize > 0 {
      ChunkPlanLast(fillerSize);
    }
  }

  /** The bytes handed to the writer before its `i`-th call (from zero). */
  function HandedOver(n: nat, i: nat): nat
    requires i <= |ChunkPlan(n)|
  {
    Total(ChunkPlan(n)[..i])
  }

  /** Every call before the last one writes a full buffer, so before call
      `i` exactly `i` buffers were handed over, and that is less than the
      whole file. */
  lemma {:induction false} HandedOverFullBuffers(n: nat, i: nat)
    requires i < |ChunkPlan(n)|
    ensures HandedOver(n, i) == BUFFER_SIZE * i < n
  {
    if i > 0 {
      var rest := ChunkPlan(n - BUFFER_SIZE);
      HandedOverFullBuffers(n - BUFFER_SIZE, i - 1);
      assert ChunkPlan(n)[..i] == [BUFFER_SIZE] + rest[..i - 1];
      assert ([BUFFER_SIZE] + rest[..i - 1])[1..] == rest[..i - 1];
    }
  }

  /** What the run needs from its surroundings to create the filler: the
      answers at the prompt, the largest `usize` of the target, the unique
      token put in the file name, the working directory, whether creating the
      file fails, which `write` call fails first (counted from zero; `None`:
      none does), how many bytes reach the disk before a failed write, and
      the modification time the platform records (if any). */
  datatype FillerEnv = FillerEnv(
    entries: seq<Entry>,
    usizeMax: nat,
    token: string,
    cwd: Path,
    createFails: bool,
    writeFails: Option<nat>,
    partialLen: nat,
    clock: Option<int>)

  /** A created filler file: the relative path it was created under and its
      length. */
  datatype Filler = Filler(path: Path, size: nat)

  /** What `create_filler_file` leaves behind: its result, and the local
      filesystem, which keeps whatever was written even when it fails. */
  datatype Created = Created(result: Result<Filler, Error>, fs: Fs)

  /** `./<token>_filler.txt` */
  function FillerPath(token: string): (p: Path)
    ensures !IsAbsolute(p) && FileName(p) == Some(Unicode(token + "_filler.txt"))
  {
    [CurDir, Normal(Unicode(token + "_filler.txt"))]
  }

  /** Where the filler file lives once created: its name resolved against
      the working directory. */
  function FillerAt(env: FillerEnv): Path
    requires IsAbsolute(env.cwd)
  {
    Resolve(env.cwd, FillerPath(env.token))
  }

  /** Whether a `write` call for a filler of `size` bytes fails: one the
      loop never makes cannot. */
  predicate WriteFails(env: FillerEnv, size: nat) {
    env.writeFails.Some? && env.writeFails.value < Iterations(size)
  }

  /** `create_filler_file`: prompt for the free space to leave, size the
      filler as the difference, create the file and write it chunk by chunk.
      On success the filesystem holds, at the resolved path and nowhere else
      new, a file exactly as long as the filler. A failed write panics
      (`unwrap`) and leaves a shorter file behind: at most the full buffers
      handed over before the failing call, however many of them the buffered
      writer got to the disk. */
  function CreateFillerFile(currentFree: u64, env: FillerEnv, fs: Fs): (r: Created)
    requires IsAbsolute(env.cwd)
    ensures r.result.Success? <==>
              && PromptDesired(currentFree, env.entries).Success?
              && currentFree - PromptDesired(currentFree, env.entries).value <= env.usizeMax
              && !env.createFails
              && !WriteFails(env, currentFree - PromptDesired(currentFree, env.entries).value)
    ensures r.result.Success? ==>
              var desired := PromptDesired(currentFree, env.entries).value;
              Acceptable(currentFree, desired) && r.result.value.size + desired == currentFree
    ensures r.result.Success? ==> r.result.value.size > 0 && r.result.value.path == FillerPath(env.token)
    ensures r.result.Success? ==>
              r.fs == fs[FillerAt(env) := FileStat(r.result.value.size, env.clock)]
    ensures PromptDesired(currentFree, env.entries).Failure? ==> r == Created(Failure(Prompt), fs)
    ensures r.result == Failure(Panic(UnwrapOnError)) ==>
              && PromptDesired(currentFree, env.entries).Success?
              && WriteFails(env, currentFree - PromptDesired(currentFree, env.entries).value)
              && var at := FillerAt(env);
                 && at in r.fs && r.fs == fs[at := r.fs[at]]
                 && r.fs[at].len <= BUFFER_SIZE * env.writeFails.value
                 && BUFFER_SIZE * env.writeFails.value < currentFree - PromptDesired(currentFree, env.entries).value
    ensures r.result.Failure? && r.result.error != Panic(UnwrapOnError) ==> r.fs == fs
    // a file that cannot be created is an error, and a failed write panics
    ensures PromptDesired(currentFree, env.entries).Success?
            && currentFree - PromptDesired(currentFree, env.entries).value <= env.usizeMax
            && env.createFails
            ==> r.result == Failure(FileCreate)
    ensures PromptDesired(currentFree, env.entries).Success?
            && currentFree - PromptDesired(currentFree, env.entries).value <= env.usizeMax
            && !env.createFails && WriteFails(env, currentFree - PromptDesired(currentFree, env.entries).value)
            ==> r.result == Failure(Panic(UnwrapOnError))
  {
    match PromptDesired(currentFree, env.entries)
    case Failure(e) => Created(Failure(e), fs)
    case Success(desired) =>
      match FillerSize(currentFree, desired)
      case Failure(e) => Created(Failure(e), fs)
      case Success(size64) =>
        match ToUsize(size64, env.usizeMax)
        case Failure(e) => Created(Failure(e), fs)
        case Success(size) =>
          var path := FillerPath(env.token);
          var at := FillerAt(env);
          if env.createFails then Created(Failure(FileCreate), fs)
          else if WriteFails(env, size) then
            ChunkPlanCount(size);
            HandedOverFullBuffers(size, env.writeFails.value);
            var len := Min(env.partialLen, HandedOver(size, env.writeFails.value));
            Created(Failure(Panic(UnwrapOnError)), fs[at := FileStat(len, env.clock)])
          else
            ChunkPlanTotal(size);
            Created(Success(Filler(path, size)), fs[at := FileStat(Total(ChunkPlan(size)), env.clock)])
  }

  /** `delete_fillter_file`: ask whether to delete the local filler and
      remove it only on a yes. A no leaves the filesystem as it was and is
      still a success; a failed prompt or a failed removal is an error. */
  function DeleteFillerFile(fs: Fs, path: Path, confirmed: Result<bool, Error>, removeFails: bool): (r: Result<Fs, Error>)
    ensures confirmed.Failure? ==> r == Failure(confirmed.error)
    ensures confirmed == Success(false) ==> r == Success(fs)
    ensures confirmed == Success(true) ==> (r.Success? <==> path in fs && !removeFails)
    ensures r.Success? ==> (path in fs && path !in r.value <==> confirmed == Success(true))
    ensures r.Success? ==> r.value.Keys <= fs.Keys
    ensures r.Success? ==> forall q :: q in fs && q != path ==> q in r.value && r.value[q] == fs[q]
  {
    var remove :- confirmed;
    if remove then RemoveFile(fs, path, removeFails) else Success(fs)
  }
}

=== FILE: localfs.dfy ===
/** The slice of the local filesystem the tool touches: paths as sequences of
    components (as Rust's `Path::components` yields them), and a map from
    absolute paths to the files stored there. Symbolic links are not modelled,
    so an absolute path names at most one file. */
module LocalFs {
  import opened Results
  import opened Errors

  /** An `OsStr`: either valid Unicode text or some other platform string. */
  datatype OsName = Unicode(text: string) | NonUnicode

  datatype Component = RootDir | CurDir | ParentDir | Normal(name: OsName)

  /** The components as `Path::components` yields them: `CurDir` occurs
      only first. */
  type Path = seq<Component>

  /** What `std::fs::metadata` reports: the length in bytes and, where the
      platform records one, the modification time. */
  datatype FileStat = FileStat(len: nat, modified: Option<int>)

  type Fs = map<Path, FileStat>

  predicate IsAbsolute(p: Path) {
    |p| > 0 && p[0] == RootDir
  }

  /** `Path::file_name`: the final component when it is a normal name; none
      when the path ends in `..`, or is `.` or the root. `Path::components`
      drops every `.` but a leading one, so a path whose last component is
      `CurDir` stands for `.` alone. */
  function FileName(p: Path): (r: Option<OsName>)
    ensures r.Some? <==> |p| > 0 && p[|p| - 1].Normal?
    ensures r.Some? ==> p[|p| - 1] == Normal(r.value)
  {
    if |p| > 0 && p[|p| - 1].Normal? then Some(p[|p| - 1].name) else None
  }

  /** The absolute path a path names when resolved against the working
      directory `cwd`: a leading `.` is replaced by `cwd`, any other relative
      path is appended to `cwd`. */
  function Resolve(cwd: Path, p: Path): (r: Path)
    requires IsAbsolute(cwd)
    ensures IsAbsolute(r)
    ensures IsAbsolute(p) ==> r == p
    ensures |p| > 0 && p[|p| - 1].Normal? ==> FileName(r) == FileName(p)
  {
    if IsAbsolute(p) then p
    else if |p| > 0 && p[0] == CurDir then cwd + p[1..]
    else cwd + p
  }

  /** `canonicalize`: the absolute path of an existing file; it fails when
      nothing exists there, or when the filesystem reports an error
      (`fails`). */
  function Canonicalize(cwd: Path, fs: Fs, p: Path, fails: bool): (r: Result<Path, Error>)
    requires IsAbsolute(cwd)
    ensures r.Success? <==> !fails && Resolve(cwd, p) in fs
    ensures r.Success? ==> r.value == Resolve(cwd, p) && IsAbsolute(r.value)
    ensures r.Failure? ==> r.error == CanonicalizeFailed
  {
    var abs := Resolve(cwd, p);
    if fails || abs !in fs then Failure(CanonicalizeFailed) else Success(abs)
  }

  /** `remove_file`: deletes the file at `p` and nothing else; it fails when
      there is no such file or the filesystem reports an error (`fails`). */
  function RemoveFile(fs: Fs, p: Path, fails: bool): (r: Result<Fs, Error>)
    ensures r.Success? <==> !fails && p in fs
    ensures r.Success? ==> p !in r.value && r.value.Keys == fs.Keys - {p}
    ensures r.Success? ==> forall q :: q in r.value ==> r.value[q] == fs[q]
    ensures r.Failure? ==> r.error == RemoveFailed
  {
    if fails || p !in fs then Failure(RemoveFailed) else Success(fs - {p})
  }
}

=== FILE: results.dfy ===
/** Failure-compatible wrappers used throughout the model: `Option` for values
    that may be absent, `Result` for operations that return a value or an error
    (Rust's `Option<T>` and `Result<T, E>`). Both support `:-`, which models
    Rust's `?` operator (early return on the first error). */
module Results {

  datatype Option<+T> = None | Some(value: T) {
    predicate IsFailure() {
      None?
    }

    function PropagateFailure<U>(): Option<U>
      requires None?
    {
      None
    }

    function Extract(): T
      requires Some?
    {
      value
    }
  }

  datatype Result<+T, +E> = Success(value: T) | Failure(error: E) {
    predicate IsFailure() {
      Failure?
    }

    function PropagateFailure<U>(): Result<U, E>
      requires Failure?
    {
      Failure(error)
    }

    function Extract(): T
      requires Success?
    {
      value
    }
  }

  /** Rust's `Option::context(..)`: a missing value becomes the given error. */
  function OrError<T, E>(o: Option<T>, e: E): (r: Result<T, E>)
    ensures r.Success? <==> o.Some?
    ensures o.Some? ==> r.value == o.value
    ensures o.None? ==> r.error == e
  {
    match o
    case Some(v) => Success(v)
    case None => Failure(e)
  }
}

=== FILE: unix.dfy ===
/** The Unix driver (src/unix.rs), on top of libmtp. Device detection,
    opening, the storage list, the push and the storage refresh are foreign
    calls; the model takes their results from an `Env` value, one field per
    call, so every combination of answers and failures is covered. */
module Unix {
  import opened Results
  import opened Bytes
  import opened Errors
  import opened LocalFs
  import opened Filler
  import Drive

  /** libmtp's numeric storage id. */
  type StorageId = u32

  datatype Storage = Storage(id: StorageId, description: Option<string>, maximumCapacity: u64, freeSpace: u64)

  /** An opened device, seen through the storage list libmtp keeps for it.
      That list is read when the device is opened and re-read only by
      `update_storage`. */
  datatype MtpDevice = MtpDevice(storages: seq<Storage>)

  /** A detected device, with what opening it yields (`None`: it cannot be
      opened). */
  datatype RawDevice = RawDevice(vendor: string, product: string, vendorId: nat, productId: nat, opensAs: Option<MtpDevice>)

  /** The content type sent with a file; only `Unknown` is ever used here. */
  datatype Filetype = Unknown | Folder | Other(code: nat)

  datatype FileMetadata = FileMetadata(fileName: string, fileSize: nat, fileType: Filetype, modificationDate: int)

  datatype CallbackReturn = Continue | Cancel

  /** One call of the progress callback: the bytes sent so far, the total,
      and whether flushing standard output succeeds during it. */
  datatype Report = Report(sent: nat, total: nat, flushOk: bool)

  /** One push as the transport performs it: the progress reports it hands
      to the callback, and whether the transfer itself succeeds. */
  datatype Push = Push(progress: seq<Report>, transportOk: bool)

  /** The answers of every foreign call and prompt of one run: `None` for a
      call that fails. */
  datatype Env = Env(
    detected: Option<seq<RawDevice>>,
    deviceChoice: Option<nat>,
    storageChoice: Option<nat>,
    filler: FillerEnv,
    fs: Fs,
    canonicalizeFails: bool,
    push: Push,
    confirmDelete: Option<bool>,
    removeFails: bool,
    refreshed: Option<seq<Storage>>)

  /** The steps of `run`, in order. */
  const Order: seq<Drive.Step> := [
    Drive.SelectDevice, Drive.SelectStorage, Drive.ReadFreeSpace, Drive.CreateFiller,
    Drive.Canonicalize, Drive.ReadMetadata, Drive.SendFile, Drive.DeleteFiller,
    Drive.UpdateStorage, Drive.ReadRemainingFreeSpace]

  /** What one entry of the device list shows: its index, the vendor and
      product names, and the numbers printed after `VID:` and after `PID:`. */
  datatype DeviceLabel = DeviceLabel(index: nat, vendor: string, product: string, shownVid: nat, shownPid: nat)

  /** The entry as `select_device` formats it: the arguments after the
      names are the product id and then the vendor id, so the product id is
      printed after `VID:` and the vendor id after `PID:`. */
  function DeviceLabelAsWritten(i: nat, d: RawDevice): DeviceLabel {
    DeviceLabel(i, d.vendor, d.product, d.productId, d.vendorId)
  }

  /** A phone with vendor id 0x18D1 and product id 0x4EE1 is listed with
      `VID: 20193, PID: 6353`: the labels name the wrong ids. */
  lemma LabelSwapsIds()
    ensures var d := RawDevice("Google", "Pixel", 0x18D1, 0x4EE1, None);
      && DeviceLabelAsWritten(0, d).shownVid != d.vendorId
      && DeviceLabelAsWritten(0, d).shownPid != d.productId
      && DeviceLabelAsWritten(0, d).shownVid == d.productId
  {
  }

  /** The device list as evidently intended: entry `i` describes device `i`,
      with each id after its own label. */
  function DeviceList(devices: seq<RawDevice>): (r: seq<DeviceLabel>)
    ensures |r| == |devices|
    ensures forall i :: 0 <= i < |r| ==>
              && r[i].index == i && r[i].vendor == devices[i].vendor && r[i].product == devices[i].product
              && r[i].shownVid == devices[i].vendorId && r[i].shownPid == devices[i].productId
  {
    seq(|devices|, i requires 0 <= i < |devices| =>
      DeviceLabel(i, devices[i].vendor, devices[i].product, devices[i].vendorId, devices[i].productId))
  }

  /** Two devices that share names but differ in an id are told apart by
      their entries even at the same position. */
  lemma ListTellsIdsApart(a: RawDevice, b: RawDevice)
    requires a.vendorId != b.vendorId || a.productId != b.productId
    ensures DeviceList([a]) != DeviceList([b])
  {
    assert DeviceList([a])[0] != DeviceList([b])[0];
  }

  /** `select_device`: detect the raw devices, let the user pick one by index
      and open it. Nothing checks for an empty list before the prompt; an
      index that names no device is an error, as is a device that will not
      open. */
  function SelectDevice(detected: Option<seq<RawDevice>>, choice: Option<nat>): (r: Result<MtpDevice, Error>)
    ensures r.Success? <==>
              detected.Some? && choice.Some? && choice.value < |detected.value| &&
              detected.value[choice.value].opensAs.Some?
    ensures r.Success? ==> r.value == detected.value[choice.value].opensAs.value
    ensures detected.None? ==> r == Failure(DeviceEnumeration)
    ensures detected.Some? && choice.Some? && choice.value >= |detected.value| ==> r == Failure(DeviceNotSelected)
  {
    var devices :- OrError(detected, DeviceEnumeration);
    var index :- OrError(choice, Prompt);
    if index >= |devices| then Failure(DeviceNotSelected)
    else OrError(devices[index].opensAs, DeviceOpen)
  }

  /** With no device attached there is nothing to select, whatever the
      prompt answers. */
  lemma NoDeviceNoSelection(choice: Option<nat>)
    ensures SelectDevice(Some([]), choice).Failure?
  {
  }

  /** `select_storage`: let the user pick one storage of the device by index
      and return its id. The index is used on the list directly, so an
      out-of-range answer panics. */
  function SelectStorage(device: MtpDevice, choice: Option<nat>): (r: Result<StorageId, Error>)
    ensures r.Success? <==> choice.Some? && choice.value < |device.storages|
    ensures r.Success? ==> r.value == device.storages[choice.value].id
    ensures choice.None? ==> r == Failure(Prompt)
    ensures choice.Some? && choice.value >= |device.storages| ==> r == Failure(Panic(IndexOutOfBounds))
  {
    var index :- OrError(choice, Prompt);
    if index < |device.storages| then Success(device.storages[index].id)
    else Failure(Panic(IndexOutOfBounds))
  }

  /** The storage pool's `by_id`: the storage with the given id, if any. */
  function ById(storages: seq<Storage>, id: StorageId): (r: Option<Storage>)
    ensures r.Some? <==> exists i :: 0 <= i < |storages| && storages[i].id == id
    ensures r.Some? ==> r.value in storages && r.value.id == id
  {
    if |storages| == 0 then None
    else if storages[0].id == id then Some(storages[0])
    else
      var rest := ById(storages[1..], id);
      assert forall k :: 0 <= k < |storages| - 1 ==> storages[1..][k] == storages[k + 1];
      rest
  }

  /** `get_free_space`: the free space the device's storage list records for
      the storage `id`; an error when no storage has that id. */
  function GetFreeSpace(device: MtpDevice, id: StorageId): (r: Result<u64, Error>)
    ensures r.Success? <==> exists i :: 0 <= i < |device.storages| && device.storages[i].id == id
    ensures r.Success? ==> exists s :: s in device.storages && s.id == id && s.freeSpace == r.value
    ensures r.Failure? ==> r.error == StorageNotFound
  {
    var storage :- OrError(ById(device.storages, id), StorageNotFound);
    Success(storage.freeSpace)
  }

  /** The progress callback given to the push: it redraws the bar, flushes
      standard output (an `expect`, so a failed flush panics) and lets the
      transfer go on. */
  function ProgressCallback(report: Report): (r: Result<CallbackReturn, Error>)
    ensures r.Success? <==> report.flushOk
    ensures r.Success? ==> r.value == Continue
    ensures r.Failure? ==> r.error == Panic(ExpectOnError)
  {
    if report.flushOk then Success(Continue) else Failure(Panic(ExpectOnError))
  }

  /** The transport side of `send_file_from_path_with_callback`: the
      callback is called with each progress report, a `Cancel` answer stops
      the transfer, and a panic in it ends everything; otherwise the
      transport decides. */
  function Transfer(progress: seq<Report>, transportOk: bool): Result<(), Error> {
    if |progress| == 0 then (if transportOk then Success(()) else Failure(TransferFailed))
    else match ProgressCallback(progress[0])
      case Failure(e) => Failure(e)
      case Success(Cancel) => Failure(TransferCancelled)
      case Success(Continue) => Transfer(progress[1..], transportOk)
  }

  predicate AllFlushed(progress: seq<Report>) {
    forall i :: 0 <= i < |progress| ==> progress[i].flushOk
  }

  /** Since the callback never answers `Cancel`, no push is cancelled from
      it: it panics when a flush fails, and otherwise its outcome is the
      transport's, however many reports it made. */
  lemma {:induction false} NeverCancelled(progress: seq<Report>, transportOk: bool)
    ensures Transfer(progress, transportOk) ==
              if !AllFlushed(progress) then Failure(Panic(ExpectOnError))
              else if transportOk then Success(())
              else Failure(TransferFailed)
  {
    if |progress| > 0 {
      NeverCancelled(progress[1..], transportOk);
      assert forall k :: 0 <= k < |progress| - 1 ==> progress[1..][k] == progress[k + 1];
      assert AllFlushed(progress) <==> progress[0].flushOk && AllFlushed(progress[1..]);
    }
  }

  /** Whether the push itself goes through: every flush in the callback
      works and the transport succeeds. */
  predicate PushSucceeds(push: Push) {
    AllFlushed(push.progress) && push.transportOk
  }

  /** `send_file_to_device`: look the storage up again and push the file
      into its root. It fails when the id no longer resolves, a flush in the
      callback fails, or the transport fails. */
  function SendFile(device: MtpDevice, id: StorageId, meta: FileMetadata, push: Push): (r: Result<(), Error>)
    ensures r.Success? <==> GetFreeSpace(device, id).Success? && AllFlushed(push.progress) && push.transportOk
    ensures GetFreeSpace(device, id).Failure? ==> r == Failure(StorageNotFound)
    ensures GetFreeSpace(device, id).Success? && !AllFlushed(push.progress) ==> r == Failure(Panic(ExpectOnError))
    ensures GetFreeSpace(device, id).Success? && AllFlushed(push.progress) && !push.transportOk ==>
              r == Failure(TransferFailed)
  {
    var _ :- OrError(ById(device.storages, id), StorageNotFound);
    NeverCancelled(push.progress, push.transportOk);
    Transfer(push.progress, push.transportOk)
  }

  /** `get_metadata`: the file's on-disk length and modification time, its
      final name as text, and the `Unknown` content type. It fails when the
      file cannot be stat'ed, has no modification time, the path ends without
      a name, or the name is not valid Unicode, checked in that order. */
  function GetMetadata(fs: Fs, path: Path): (r: Result<FileMetadata, Error>)
    ensures r.Success? <==>
              path in fs && fs[path].modified.Some? && FileName(path).Some? && FileName(path).value.Unicode?
    ensures r.Success? ==>
              && r.value.fileSize == fs[path].len
              && r.value.fileType == Unknown
              && Some(r.value.modificationDate) == fs[path].modified
              && FileName(path) == Some(Unicode(r.value.fileName))
    ensures path !in fs ==> r == Failure(MetadataUnavailable)
    ensures path in fs && fs[path].modified.None? ==> r == Failure(ModificationTime)
    ensures path in fs && fs[path].modified.Some? && FileName(path).None? ==> r == Failure(NoFileName)
    ensures path in fs && fs[path].modified.Some? && FileName(path) == Some(NonUnicode) ==> r == Failure(FileNameNotUnicode)
  {
    if path !in fs then Failure(MetadataUnavailable)
    else
      var stat := fs[path];
      var modified :- OrError(stat.modified, ModificationTime);
      var name :- OrError(FileName(path), NoFileName);
      match name
      case NonUnicode => Failure(FileNameNotUnicode)
      case Unicode(text) => Success(FileMetadata(text, stat.len, Unknown, modified))
  }

  /** `update_storage`: re-read the device's storage list. */
  function UpdateStorage(device: MtpDevice, refreshed: Option<seq<Storage>>): (r: Result<MtpDevice, Error>)
    ensures r.Success? <==> refreshed.Some?
    ensures r.Success? ==> r.value.storages == refreshed.value
    ensures r.Failure? ==> r.error == UpdateStorageFailed
  {
    var storages :- OrError(refreshed, UpdateStorageFailed);
    Success(MtpDevice(storages))
  }

  /** The part of `run` from the push on: push the file at `path` to storage
      `id`, offer to delete it, refresh the storage list and read the free
      space again. */
  function PushAndReport(env: Env, id: StorageId, device: MtpDevice, meta: FileMetadata, fs1: Fs, path: Path,
                         t: Drive.Trace<StorageId>): (r: Drive.RunResult<StorageId>)
    requires t.sentTo.None? && t.sentSize.None? && t.requeried.None?
    ensures 6 < r.entered <= |Order| && (r.outcome.Finished? ==> r.entered == |Order|)
    ensures r.trace.storage == t.storage && r.trace.freeBefore == t.freeBefore && r.trace.fillerSize == t.fillerSize
    ensures r.trace.sentTo == Some(id) && r.trace.sentSize == Some(meta.fileSize)
    ensures r.trace.requeried.Some? ==> r.trace.requeried == Some(id)
    ensures r.entered > 7 ==> PushSucceeds(env.push)
    ensures r.entered == 7 ==> r.outcome.Failed? && r.fs == fs1
    ensures r.outcome.Finished? ==>
              && r.trace.requeried == Some(id)
              && env.refreshed.Some? && GetFreeSpace(MtpDevice(env.refreshed.value), id) == Success(r.outcome.remainingFree)
              && (path in fs1 && path !in r.fs <==> env.confirmDelete == Some(true))
              && r.fs.Keys <= fs1.Keys
              && forall q :: q in fs1 && q != path ==> q in r.fs && r.fs[q] == fs1[q]
    ensures r.outcome.Finished? && env.confirmDelete == Some(false) ==> r.fs == fs1
  {
    var t4 := t.(sentTo := Some(id), sentSize := Some(meta.fileSize));
    match SendFile(device, id, meta, env.push)
    case Failure(e) => Drive.RunResult(7, Drive.Failed(e), fs1, t4)
    case Success(_) =>
      match DeleteFillerFile(fs1, path, OrError(env.confirmDelete, Prompt), env.removeFails)
      case Failure(e) => Drive.RunResult(8, Drive.Failed(e), fs1, t4)
      case Success(fs2) =>
        match UpdateStorage(device, env.refreshed)
        case Failure(e) => Drive.RunResult(9, Drive.Failed(e), fs2, t4)
        case Success(device2) =>
          var t5 := t4.(requeried := Some(id));
          match GetFreeSpace(device2, id)
          case Failure(e) => Drive.RunResult(10, Drive.Failed(e), fs2, t5)
          case Success(remaining) => Drive.RunResult(10, Drive.Finished(remaining), fs2, t5)
  }

  /** The part of `run` after the free space of storage `id` was read as
      `free`: create the filler, canonicalize its path, read its metadata,
      push it, offer to delete it, refresh the storage list and read the free
      space again. */
  function FillAndReport(env: Env, id: StorageId, device: MtpDevice, free: u64): (r: Drive.RunResult<StorageId>)
    requires IsAbsolute(env.filler.cwd)
    ensures 3 < r.entered <= |Order| && (r.outcome.Finished? ==> r.entered == |Order|)
    ensures r.trace.storage == Some(id) && r.trace.freeBefore == Some(free)
    ensures r.trace.sentTo.Some? ==> r.trace.sentTo == Some(id)
    ensures r.trace.requeried.Some? ==> r.trace.requeried == Some(id)
    ensures r.trace.fillerSize.Some? ==>
              && PromptDesired(free, env.filler.entries).Success?
              && r.trace.fillerSize.value + PromptDesired(free, env.filler.entries).value == free
              && 0 < r.trace.fillerSize.value && r.trace.fillerSize.value + BUFFER_SIZE <= free
    ensures r.trace.sentSize.Some? ==> r.trace.sentSize == r.trace.fillerSize
    ensures r.entered > 7 ==> PushSucceeds(env.push)
    ensures r.entered == 7 && r.outcome.Failed? ==>
              FillerAt(env.filler) in r.fs && Some(r.fs[FillerAt(env.filler)].len) == r.trace.fillerSize
    ensures r.outcome.Finished? ==>
              env.refreshed.Some? && GetFreeSpace(MtpDevice(env.refreshed.value), id) == Success(r.outcome.remainingFree)
    ensures r.outcome.Finished? ==>
              && (FillerAt(env.filler) !in r.fs <==> env.confirmDelete == Some(true))
              && forall q :: q in env.fs && q != FillerAt(env.filler) ==> q in r.fs && r.fs[q] == env.fs[q]
    // and no file other than the filler appears; a filler that is kept is whole
    ensures r.outcome.Finished? ==> r.fs.Keys <= env.fs.Keys + {FillerAt(env.filler)}
    ensures r.outcome.Finished? && env.confirmDelete == Some(false) ==>
              FillerAt(env.filler) in r.fs && Some(r.fs[FillerAt(env.filler)].len) == r.trace.fillerSize
  {
    var t2 := Drive.Trace(Some(id), Some(free), None, None, None, None);
    var created := CreateFillerFile(free, env.filler, env.fs);
    match created.result
    case Failure(e) => Drive.RunResult(4, Drive.Failed(e), created.fs, t2)
    case Success(filler) =>
      var fs1 := created.fs;
      var t3 := t2.(fillerSize := Some(filler.size));
      match Canonicalize(env.filler.cwd, fs1, filler.path, env.canonicalizeFails)
      case Failure(e) => Drive.RunResult(5, Drive.Failed(e), fs1, t3)
      case Success(path) =>
        match GetMetadata(fs1, path)
        case Failure(e) => Drive.RunResult(6, Drive.Failed(e), fs1, t3)
        case Success(meta) =>
          PushAndReport(env, id, device, meta, fs1, path, t3)
  }

  /** `run`: the steps of `Order`, each fed by the earlier ones, ending at the
      first failure. The free space it reports is read from the refreshed
      storage list. */
  function Run(env: Env): (r: Drive.RunResult<StorageId>)
    requires IsAbsolute(env.filler.cwd)
    ensures Drive.WellFormed(r, Order)
    // the run stops at once when no device can be selected
    ensures r.entered == 1 <==> SelectDevice(env.detected, env.deviceChoice).Failure?
    // every step that addresses a storage addresses the one picked on the opened device
    ensures r.trace.storage.Some? ==>
              && SelectDevice(env.detected, env.deviceChoice).Success?
              && SelectStorage(SelectDevice(env.detected, env.deviceChoice).value, env.storageChoice)
                   == Success(r.trace.storage.value)
    ensures r.trace.sentTo.Some? ==> r.trace.sentTo == r.trace.storage
    ensures r.trace.requeried.Some? ==> r.trace.requeried == r.trace.storage
    // the filler is sized from the free space just read for that storage
    ensures r.trace.freeBefore.Some? ==>
              && r.trace.storage.Some?
              && GetFreeSpace(SelectDevice(env.detected, env.deviceChoice).value, r.trace.storage.value)
                   == Success(r.trace.freeBefore.value)
    ensures r.trace.fillerSize.Some? ==>
              && r.trace.freeBefore.Some? && r.trace.freeBefore.value <= U64_MAX
              && PromptDesired(r.trace.freeBefore.value, env.filler.entries).Success?
              && r.trace.fillerSize.value + PromptDesired(r.trace.freeBefore.value, env.filler.entries).value
                   == r.trace.freeBefore.value
              && 0 < r.trace.fillerSize.value
              && r.trace.fillerSize.value + BUFFER_SIZE <= r.trace.freeBefore.value
    // the length pushed is the filler's size, read back from the filesystem
    ensures r.trace.sentSize.Some? ==> r.trace.sentSize == r.trace.fillerSize
    // the delete prompt comes only after the push succeeded
    ensures r.entered > 7 ==> PushSucceeds(env.push)
    // a failed push ends the run with the filler still on disk, at full length
    ensures r.entered == 7 && r.outcome.Failed? ==>
              FillerAt(env.filler) in r.fs && Some(r.fs[FillerAt(env.filler)].len) == r.trace.fillerSize
    // the reported free space is a fresh read of the refreshed storage list
    ensures r.outcome.Finished? ==>
              && env.refreshed.Some? && r.trace.storage.Some?
              && GetFreeSpace(MtpDevice(env.refreshed.value), r.trace.storage.value)
                   == Success(r.outcome.remainingFree)
    // the filler is gone exactly when deletion was confirmed; nothing else changes
    ensures r.outcome.Finished? ==>
              && (FillerAt(env.filler) !in r.fs <==> env.confirmDelete == Some(true))
              && forall q :: q in env.fs && q != FillerAt(env.filler) ==> q in r.fs && r.fs[q] == env.fs[q]
    // and no file other than the filler appears; a filler that is kept is whole
    ensures r.outcome.Finished? ==> r.fs.Keys <= env.fs.Keys + {FillerAt(env.filler)}
    ensures r.outcome.Finished? && env.confirmDelete == Some(false) ==>
              FillerAt(env.filler) in r.fs && Some(r.fs[FillerAt(env.filler)].len) == r.trace.fillerSize
  {
    var t0 := Drive.Trace(None, None, None, None, None, None);
    match SelectDevice(env.detected, env.deviceChoice)
    case Failure(e) => Drive.RunResult(1, Drive.Failed(e), env.fs, t0)
    case Success(device) =>
      match SelectStorage(device, env.storageChoice)
      case Failure(e) => Drive.RunResult(2, Drive.Failed(e), env.fs, t0)
      case Success(id) =>
        var t1 := t0.(storage := Some(id));
        match GetFreeSpace(device, id)
        case Failure(e) => Drive.RunResult(3, Drive.Failed(e), env.fs, t1)
        case Success(free) => FillAndReport(env, id, device, free)
  }

  /** `run` as the source writes it, a chain of `?`, cut after the step at
      position `k` of `Order`: it succeeds exactly when every step up to
      that one succeeds on what the steps before it returned, and otherwise
      fails with the error of the first step that fails. */
  function Chain(env: Env, k: nat): Result<(), Error>
    requires IsAbsolute(env.filler.cwd) && k < |Order|
  {
    var device :- SelectDevice(env.detected, env.deviceChoice);
    if k == 0 then Success(()) else
    var id :- SelectStorage(device, env.storageChoice);
    if k == 1 then Success(()) else
    var free :- GetFreeSpace(device, id);
    if k == 2 then Success(()) else
    FillChain(env, id, device, free, k)
  }

  /** The chain from the filler's creation on. */
  function FillChain(env: Env, id: StorageId, device: MtpDevice, free: u64, k: nat): Result<(), Error>
    requires IsAbsolute(env.filler.cwd) && 3 <= k < |Order|
  {
    var created := CreateFillerFile(free, env.filler, env.fs);
    var filler :- created.result;
    if k == 3 then Success(()) else
    var path :- Canonicalize(env.filler.cwd, created.fs, filler.path, env.canonicalizeFails);
    if k == 4 then Success(()) else
    var meta :- GetMetadata(created.fs, path);
    if k == 5 then Success(()) else
    PushChain(env, id, device, meta, created.fs, path, k)
  }

  /** The chain from the push on. */
  function PushChain(env: Env, id: StorageId, device: MtpDevice, meta: FileMetadata, fs1: Fs, path: Path, k: nat)
    : Result<(), Error>
    requires 6 <= k < |Order|
  {
    var sent :- SendFile(device, id, meta, env.push);
    if k == 6 then Success(()) else
    var fs2 :- DeleteFillerFile(fs1, path, OrError(env.confirmDelete, Prompt), env.removeFails);
    if k == 7 then Success(()) else
    var device2 :- UpdateStorage(device, env.refreshed);
    if k == 8 then Success(()) else
    var remaining :- GetFreeSpace(device2, id);
    Success(())
  }

  /** From the push on, the run and the chain agree on every step, and on
      the error. */
  lemma PushFollowsChain(env: Env, id: StorageId, device: MtpDevice, meta: FileMetadata, fs1: Fs, path: Path,
                         t: Drive.Trace<StorageId>)
    requires t.sentTo.None? && t.sentSize.None? && t.requeried.None?
    ensures var r := PushAndReport(env, id, device, meta, fs1, path, t);
      && Drive.WellFormed(r, Order)
      && (forall k :: 6 <= k < |Order| ==>
            (Drive.Succeeded(r, Order, k) <==> PushChain(env, id, device, meta, fs1, path, k).Success?))
      && (r.outcome.Failed? ==> PushChain(env, id, device, meta, fs1, path, r.entered - 1) == Failure(r.outcome.error))
  {
    var r := PushAndReport(env, id, device, meta, fs1, path, t);
    var sent := SendFile(device, id, meta, env.push);
    if sent.Success? {
      var deleted := DeleteFillerFile(fs1, path, OrError(env.confirmDelete, Prompt), env.removeFails);
      if deleted.Success? {
        var updated := UpdateStorage(device, env.refreshed);
        if updated.Success? {
          assert r.entered == 10;
        } else {
          assert r.entered == 9;
        }
      } else {
        assert r.entered == 8;
      }
    } else {
      assert r.entered == 7;
    }
  }

  /** From the filler up to the metadata, the run and the chain agree on
      every step, and on the error of a run that stops there. */
  lemma FillFollowsChainEarly(env: Env, id: StorageId, device: MtpDevice, free: u64)
    requires IsAbsolute(env.filler.cwd)
    ensures var r := FillAndReport(env, id, device, free);
      && Drive.WellFormed(r, Order)
      && (forall k :: 3 <= k < 6 ==>
            (Drive.Succeeded(r, Order, k) <==> FillChain(env, id, device, free, k).Success?))
      && (r.outcome.Failed? && r.entered <= 6 ==>
            FillChain(env, id, device, free, r.entered - 1) == Failure(r.outcome.error))
  {
    var r := FillAndReport(env, id, device, free);
    var created := CreateFillerFile(free, env.filler, env.fs);
    if created.result.Success? {
      var canonical := Canonicalize(env.filler.cwd, created.fs, created.result.value.path, env.canonicalizeFails);
      if canonical.Success? {
        if GetMetadata(created.fs, canonical.value).Success? {
          assert r.entered > 6;
        } else {
          assert r.entered == 6;
        }
      } else {
        assert r.entered == 5;
      }
    } else {
      assert r.entered == 4;
    }
  }

  /** From the push on, the run and the chain agree on every step, and on
      the error of a run that stops there. */
  lemma FillFollowsChainLate(env: Env, id: StorageId, device: MtpDevice, free: u64)
    requires IsAbsolute(env.filler.cwd)
    ensures var r := FillAndReport(env, id, device, free);
      && Drive.WellFormed(r, Order)
      && (forall k :: 6 <= k < |Order| ==>
            (Drive.Succeeded(r, Order, k) <==> FillChain(env, id, device, free, k).Success?))
      && (r.outcome.Failed? && r.entered > 6 ==>
            FillChain(env, id, device, free, r.entered - 1) == Failure(r.outcome.error))
  {
    var r := FillAndReport(env, id, device, free);
    var created := CreateFillerFile(free, env.filler, env.fs);
    if created.result.Success? {
      var filler := created.result.value;
      var canonical := Canonicalize(env.filler.cwd, created.fs, filler.path, env.canonicalizeFails);
      if canonical.Success? {
        var meta := GetMetadata(created.fs, canonical.value);
        if meta.Success? {
          var t3 := Drive.Trace(Some(id), Some(free as nat), Some(filler.size), None, None, None);
          PushFollowsChain(env, id, device, meta.value, created.fs, canonical.value, t3);
          forall k | 6 <= k < |Order|
            ensures FillChain(env, id, device, free, k) == PushChain(env, id, device, meta.value, created.fs, canonical.value, k)
          {
          }
        } else {
          assert r.entered == 6;
        }
      } else {
        assert r.entered == 5;
      }
    } else {
      assert r.entered == 4;
    }
  }

  /** The run gets exactly as far as the chain of `?` does: a step succeeds
      in the run exactly when the chain up to it succeeds, so the run enters
      a step exactly when every step before it succeeded, and a failed run
      carries the error of the first step that failed. */
  lemma RunFollowsChain(env: Env)
    requires IsAbsolute(env.filler.cwd)
    ensures var r := Run(env);
      forall k :: 0 <= k < |Order| ==> (Drive.Succeeded(r, Order, k) <==> Chain(env, k).Success?)
    ensures var r := Run(env);
      r.outcome.Failed? ==> Chain(env, r.entered - 1) == Failure(r.outcome.error)
  {
    var device := SelectDevice(env.detected, env.deviceChoice);
    if device.Success? {
      var id := SelectStorage(device.value, env.storageChoice);
      if id.Success? {
        var free := GetFreeSpace(device.value, id.value);
        if free.Success? {
          FillFollowsChainEarly(env, id.value, device.value, free.value);
          FillFollowsChainLate(env, id.value, device.value, free.value);
          forall k | 3 <= k < |Order|
            ensures Chain(env, k) == FillChain(env, id.value, device.value, free.value, k)
          {
          }
        }
      } else {
        assert Run(env).entered == 2;
      }
    } else {
      assert Run(env).entered == 1;
    }
  }

  /** With no device detected the run ends at the first step, with an
      error. */
  lemma NoDeviceEndsRun(env: Env)
    requires IsAbsolute(env.filler.cwd) && env.detected == Some([])
    ensures Run(env).entered == 1 && Run(env).outcome.Failed?
  {
    NoDeviceNoSelection(env.deviceChoice);
  }

  /** A run that stopped at the push reaches none of the steps after it. */
  lemma StopsAtPush(r: Drive.RunResult<StorageId>)
    requires Drive.WellFormed(r, Order) && r.entered == 7
    ensures r.outcome.Failed? && Drive.FailingStep(r, Order) == Drive.SendFile
    ensures !Drive.Reached(r, Order, Drive.DeleteFiller)
      && !Drive.Reached(r, Order, Drive.UpdateStorage)
    ensures !Drive.Reached(r, Order, Drive.ReadRemainingFreeSpace)
  {
    assert Drive.Steps(r, Order) == Order[..7];
  }

  /** There is no cleanup path: a run that enters the push and whose push
      fails stops there, never reaches the delete prompt or anything after
      it, and leaves the filler on disk at full length. */
  lemma FailedPushSkipsDelete(env: Env)
    requires IsAbsolute(env.filler.cwd)
    requires !PushSucceeds(env.push)
    ensures var r := Run(env); r.entered >= 7 ==>
      && r.entered == 7 && r.outcome.Failed? && Drive.FailingStep(r, Order) == Drive.SendFile
      && !Drive.Reached(r, Order, Drive.DeleteFiller)
      && !Drive.Reached(r, Order, Drive.UpdateStorage)
      && !Drive.Reached(r, Order, Drive.ReadRemainingFreeSpace)
      && FillerAt(env.filler) in r.fs && Some(r.fs[FillerAt(env.filler)].len) == r.trace.fillerSize
  {
    var r := Run(env);
    if r.entered >= 7 {
      StopsAtPush(r);
    }
  }

  /** The sample run's one storage: 2,000,000,000 bytes, of which
      1,000,000,000 are free. */
  function SampleStorage(): Storage {
    Storage(65537, None, 2_000_000_000, 1_000_000_000)
  }

  /** The sample run's surroundings: one phone with that storage,
      900,000,000 bytes to be left, a push that goes through, a confirmed
      deletion, and a refresh after which the storage reports 899,998,000
      free. */
  function SampleEnv(): Env {
    Env(Some([RawDevice("vendor", "phone", 1, 2, Some(MtpDevice([SampleStorage()])))]),
        Some(0), Some(0),
        FillerEnv([Typed(Some(900_000_000))], U64_MAX, "token", [RootDir, Normal(Unicode("work"))], false, None, 0, Some(0)),
        map[], false, Push([Report(0, 100_000_000, true), Report(100_000_000, 100_000_000, true)], true), Some(true), false,
        Some([SampleStorage().(freeSpace := 899_998_000)]))
  }

  /** From the filler on, the sample run creates a filler of 100,000,000
      bytes, pushes all of it, deletes it, and reports the refreshed figure. */
  lemma SampleFill()
    ensures var r := FillAndReport(SampleEnv(), 65537, MtpDevice([SampleStorage()]), 1_000_000_000);
      && r.outcome == Drive.Finished(899_998_000)
      && r.trace.fillerSize == Some(100_000_000)
      && r.trace.sentSize == Some(100_000_000)
      && r.fs == map[]
  {
    var env := SampleEnv();
    var created := CreateFillerFile(1_000_000_000, env.filler, env.fs);
    assert created.result == Success(Filler(FillerPath("token"), 100_000_000));
  }

  /** The sample run: 1,000,000,000 bytes free, 900,000,000 to be left, and a
      device that reports 899,998,000 free after the refresh. The filler is
      100,000,000 bytes, all of it is pushed, and the report is the device's
      figure, not the requested one. */
  lemma SampleRun()
    ensures var r := Run(SampleEnv());
      && r.outcome == Drive.Finished(899_998_000)
      && r.trace.fillerSize == Some(100_000_000)
      && r.trace.sentSize == Some(100_000_000)
      && r.fs == map[]
  {
    var env := SampleEnv();
    var device := MtpDevice([SampleStorage()]);
    assert SelectDevice(env.detected, env.deviceChoice) == Success(device);
    assert GetFreeSpace(device, 65537) == Success(1_000_000_000);
    SampleFill();
  }
}

=== FILE: windows.dfy ===
/** The Windows driver (src/windows.rs), on top of Windows Portable Devices.
    Enumeration, opening, the content tree, property reads and the push are
    foreign calls; the model takes their results from an `Env` value, one
    field per call, and a `Device` value that stands for what the device
    reports. */
module Windows {
  import opened Results
  import opened Bytes
  import opened Errors
  import opened LocalFs
  import opened Filler
  import opened Decimal
  import Drive

  /** A WPD object id (a wide string). */
  type ObjectId = string

  /** `WPD_STORAGE_CAPACITY` and `WPD_STORAGE_FREE_SPACE_IN_BYTES`. */
  datatype PropertyKey = StorageCapacity | StorageFreeSpace

  /** A property read as a string: text, or a wide string that is not valid
      UTF-16. */
  datatype PropertyValue = Text(text: string) | InvalidUtf16

  datatype Object = Object(name: string, properties: map<PropertyKey, PropertyValue>)

  /** An opened device as its content tree shows it: whether the content can
      be opened at all, the ids under the root (`None`: the root or its
      children cannot be read), and the objects by id. Every read goes to the
      device, so a later `Device` value stands for a later state. */
  datatype Device = Device(contentOk: bool, rootChildren: Option<seq<ObjectId>>, objects: map<ObjectId, Object>)

  /** An enumerated device, with what opening it yields. */
  datatype DeviceInfo = DeviceInfo(friendlyName: string, opensAs: Option<Device>)

  /** The answers of every foreign call and prompt of one run: `None` for a
      call that fails. The opened device answers the storage listing;
      `atRead` is the device as the free-space read before the filler sees
      it, `atPush` as the push's content lookups see it, and `pushed` as the
      final read sees it after a successful push (`None`: the push fails). */
  datatype Env = Env(
    enumerated: Option<seq<DeviceInfo>>,
    deviceChoice: Option<nat>,
    storageChoice: Option<nat>,
    atRead: Device,
    filler: FillerEnv,
    fs: Fs,
    canonicalizeFails: bool,
    atPush: Device,
    pushed: Option<Device>,
    confirmDelete: Option<bool>,
    removeFails: bool)

  /** The steps of `run`, in order: no metadata step and no storage refresh. */
  const Order: seq<Drive.Step> := [
    Drive.SelectDevice, Drive.SelectStorage, Drive.ReadFreeSpace, Drive.CreateFiller,
    Drive.Canonicalize, Drive.SendFile, Drive.DeleteFiller, Drive.ReadRemainingFreeSpace]

  /** `get_bytes_from_property`: open the content, find the object, fetch the
      property as a string and read it as a decimal u64. */
  function GetBytesFromProperty(device: Device, id: ObjectId, key: PropertyKey): (r: Result<u64, Error>)
    ensures r.Success? <==>
              && device.contentOk && id in device.objects && key in device.objects[id].properties
              && device.objects[id].properties[key].Text?
              && IsU64Text(device.objects[id].properties[key].text)
    ensures r.Success? ==> ParseU64(device.objects[id].properties[key].text) == Success(r.value)
    ensures !device.contentOk ==> r == Failure(ContentUnavailable)
    ensures device.contentOk && id !in device.objects ==> r == Failure(ObjectNotFound)
  {
    if !device.contentOk then Failure(ContentUnavailable)
    else if id !in device.objects then Failure(ObjectNotFound)
    else
      var properties := device.objects[id].properties;
      if key !in properties then Failure(PropertyUnavailable)
      else match properties[key]
        case InvalidUtf16 => Failure(PropertyNotText)
        case Text(text) => ParseU64(text)
  }

  /** A property holding the decimal text of a u64 reads as that u64. */
  lemma PropertyRoundTrip(device: Device, id: ObjectId, key: PropertyKey, n: u64)
    requires device.contentOk && id in device.objects && key in device.objects[id].properties
    requires device.objects[id].properties[key] == Text(Render(n))
    ensures GetBytesFromProperty(device, id, key) == Success(n)
  {
    ParseRender(n);
  }

  /** A non-numeric property string is an error, not a zero. */
  lemma NonNumericPropertyRefused(device: Device, id: ObjectId, key: PropertyKey, i: nat)
    requires device.contentOk && id in device.objects && key in device.objects[id].properties
    requires device.objects[id].properties[key].Text?
    requires var text := device.objects[id].properties[key].text;
      i < |text| && !IsDigit(text[i]) && !(i == 0 && text[0] == '+')
    ensures GetBytesFromProperty(device, id, key) == Failure(ParseInt)
  {
    NonNumericRefused(device.objects[id].properties[key].text, i);
  }

  /** `get_capacity`: the capacity property. */
  function GetCapacity(device: Device, id: ObjectId): (r: Result<u64, Error>)
    ensures r.Success? <==>
              && device.contentOk && id in device.objects && StorageCapacity in device.objects[id].properties
              && device.objects[id].properties[StorageCapacity].Text?
              && IsU64Text(device.objects[id].properties[StorageCapacity].text)
    ensures !device.contentOk ==> r == Failure(ContentUnavailable)
    ensures device.contentOk && id !in device.objects ==> r == Failure(ObjectNotFound)
    ensures r.Success? ==>
              && id in device.objects && StorageCapacity in device.objects[id].properties
              && device.objects[id].properties[StorageCapacity].Text?
              && ParseU64(device.objects[id].properties[StorageCapacity].text) == Success(r.value)
  {
    GetBytesFromProperty(device, id, StorageCapacity)
  }

  /** `get_free_space`: the free-space property. */
  function GetFreeSpace(device: Device, id: ObjectId): (r: Result<u64, Error>)
    ensures r.Success? <==>
              && device.contentOk && id in device.objects && StorageFreeSpace in device.objects[id].properties
              && device.objects[id].properties[StorageFreeSpace].Text?
              && IsU64Text(device.objects[id].properties[StorageFreeSpace].text)
    ensures !device.contentOk ==> r == Failure(ContentUnavailable)
    ensures device.contentOk && id !in device.objects ==> r == Failure(ObjectNotFound)
    ensures r.Success? ==>
              && id in device.objects && StorageFreeSpace in device.objects[id].properties
              && device.objects[id].properties[StorageFreeSpace].Text?
              && ParseU64(device.objects[id].properties[StorageFreeSpace].text) == Success(r.value)
  {
    GetBytesFromProperty(device, id, StorageFreeSpace)
  }

  /** Capacity and free space are read by one routine and differ only in the
      key: exchanging the two property values exchanges the two results. */
  lemma CapacityAndFreeSpaceDifferOnlyInKey(device: Device, id: ObjectId)
    requires id in device.objects
    requires StorageCapacity in device.objects[id].properties
    requires StorageFreeSpace in device.objects[id].properties
    ensures var props := device.objects[id].properties;
      var swapped := props[StorageCapacity := props[StorageFreeSpace]][StorageFreeSpace := props[StorageCapacity]];
      var device' := device.(objects := device.objects[id := device.objects[id].(properties := swapped)]);
      GetCapacity(device', id) == GetFreeSpace(device, id) && GetFreeSpace(device', id) == GetCapacity(device, id)
  {
  }

  /** `select_device`: enumerate devices, refuse an empty list before any
      prompt, let the user pick one by index and open it. */
  function SelectDevice(enumerated: Option<seq<DeviceInfo>>, choice: Option<nat>): (r: Result<Device, Error>)
    ensures r.Success? <==>
              enumerated.Some? && choice.Some? && choice.value < |enumerated.value| &&
              enumerated.value[choice.value].opensAs.Some?
    ensures r.Success? ==> r.value == enumerated.value[choice.value].opensAs.value
    ensures enumerated.None? ==> r == Failure(DeviceEnumeration)
    ensures enumerated == Some([]) ==> r == Failure(NoDevicesAttached)
  {
    var devices :- OrError(enumerated, DeviceEnumeration);
    if |devices| < 1 then Failure(NoDevicesAttached)
    else
      var index :- OrError(choice, Prompt);
      if index >= |devices| then Failure(DeviceNotSelected)
      else OrError(devices[index].opensAs, DeviceOpen)
  }

  /** The empty-list check comes before the prompt: the answer the prompt
      would give plays no part. */
  lemma EmptyListRefusedWithoutPrompt(c1: Option<nat>, c2: Option<nat>)
    ensures SelectDevice(Some([]), c1) == SelectDevice(Some([]), c2) == Failure(NoDevicesAttached)
  {
  }

  /** Whether the storage list can show a child: its capacity and free space
      both read. */
  predicate Listable(device: Device, id: ObjectId) {
    GetCapacity(device, id).Success? && GetFreeSpace(device, id).Success?
  }

  /** Whether every child can be listed, checked first to last as the
      listing does. */
  predicate AllListable(device: Device, children: seq<ObjectId>)
    ensures AllListable(device, children) <==> forall i :: 0 <= i < |children| ==> Listable(device, children[i])
  {
    if |children| == 0 then true
    else
      assert forall k :: 0 <= k < |children| - 1 ==> children[1..][k] == children[k + 1];
      Listable(device, children[0]) && AllListable(device, children[1..])
  }

  /** `select_storage`: list the children of the content root, showing each
      one's capacity and free space (both unwrapped, so an unreadable one
      panics before any prompt), let the user pick one by index and return its
      id. */
  function SelectStorage(device: Device, choice: Option<nat>): (r: Result<ObjectId, Error>)
    ensures r.Success? <==>
              && device.contentOk && device.rootChildren.Some?
              && (forall i :: 0 <= i < |device.rootChildren.value| ==> Listable(device, device.rootChildren.value[i]))
              && choice.Some? && choice.value < |device.rootChildren.value|
    ensures r.Success? ==> r.value == device.rootChildren.value[choice.value]
    ensures (device.contentOk && device.rootChildren.Some? &&
             exists i :: 0 <= i < |device.rootChildren.value| && !Listable(device, device.rootChildren.value[i]))
            ==> r == Failure(Panic(UnwrapOnError))
  {
    if !device.contentOk then Failure(ContentUnavailable)
    else
      var children :- OrError(device.rootChildren, ContentUnavailable);
      if !AllListable(device, children) then Failure(Panic(UnwrapOnError))
      else
        var index :- OrError(choice, Prompt);
        if index < |children| then Success(children[index]) else Failure(Panic(IndexOutOfBounds))
  }

  /** `send_file_to_device`: open the content, find the storage object and
      push the file into it. The result is the device as it reads afterwards. */
  function SendFile(device: Device, id: ObjectId, pushed: Option<Device>): (r: Result<Device, Error>)
    ensures r.Success? <==> device.contentOk && id in device.objects && pushed.Some?
    ensures r.Success? ==> r.value == pushed.value
    ensures device.contentOk && id in device.objects && pushed.None? ==> r == Failure(TransferFailed)
  {
    if !device.contentOk then Failure(ContentUnavailable)
    else if id !in device.objects then Failure(ObjectNotFound)
    else OrError(pushed, TransferFailed)
  }

  /** The part of `run` from the push on: push the file at `path` to storage
      `id`, offer to delete it and read the free space again. */
  function PushAndReport(env: Env, id: ObjectId, fs1: Fs, path: Path,
                         t: Drive.Trace<ObjectId>): (r: Drive.RunResult<ObjectId>)
    requires path in fs1
    requires t.sentTo.None? && t.sentSize.None? && t.requeried.None?
    ensures 5 < r.entered <= |Order| && (r.outcome.Finished? ==> r.entered == |Order|)
    ensures r.trace.storage == t.storage && r.trace.freeBefore == t.freeBefore && r.trace.fillerSize == t.fillerSize
    ensures r.trace.sentTo == Some(id) && r.trace.sentSize == Some(fs1[path].len)
    ensures r.trace.requeried.Some? ==> r.trace.requeried == Some(id)
    ensures r.entered > 6 ==> env.pushed.Some?
    ensures r.entered == 6 ==> r.outcome.Failed? && r.fs == fs1
    ensures r.outcome.Finished? ==>
              && r.trace.requeried == Some(id)
              && env.pushed.Some? && GetFreeSpace(env.pushed.value, id) == Success(r.outcome.remainingFree)
              && (path !in r.fs <==> env.confirmDelete == Some(true))
              && r.fs.Keys <= fs1.Keys
              && forall q :: q in fs1 && q != path ==> q in r.fs && r.fs[q] == fs1[q]
    ensures r.outcome.Finished? && env.confirmDelete == Some(false) ==> r.fs == fs1
  {
    var t4 := t.(sentTo := Some(id), sentSize := Some(fs1[path].len));
    match SendFile(env.atPush, id, env.pushed)
    case Failure(e) => Drive.RunResult(6, Drive.Failed(e), fs1, t4)
    case Success(device2) =>
      match DeleteFillerFile(fs1, path, OrError(env.confirmDelete, Prompt), env.removeFails)
      case Failure(e) => Drive.RunResult(7, Drive.Failed(e), fs1, t4)
      case Success(fs2) =>
        var t5 := t4.(requeried := Some(id));
        match GetFreeSpace(device2, id)
        case Failure(e) => Drive.RunResult(8, Drive.Failed(e), fs2, t5)
        case Success(remaining) => Drive.RunResult(8, Drive.Finished(remaining), fs2, t5)
  }

  /** The part of `run` after the free space of storage `id` was read as
      `free`: create the filler, canonicalize its path, push it, offer to
      delete it and read the free space again. */
  function FillAndReport(env: Env, id: ObjectId, free: u64): (r: Drive.RunResult<ObjectId>)
    requires IsAbsolute(env.filler.cwd)
    ensures 3 < r.entered <= |Order| && (r.outcome.Finished? ==> r.entered == |Order|)
    ensures r.trace.storage == Some(id) && r.trace.freeBefore == Some(free)
    ensures r.trace.sentTo.Some? ==> r.trace.sentTo == Some(id)
    ensures r.trace.requeried.Some? ==> r.trace.requeried == Some(id)
    ensures r.trace.fillerSize.Some? ==>
              && PromptDesired(free, env.filler.entries).Success?
              && r.trace.fillerSize.value + PromptDesired(free, env.filler.entries).value == free
              && 0 < r.trace.fillerSize.value && r.trace.fillerSize.value + BUFFER_SIZE <= free
    ensures r.trace.sentSize.Some? ==> r.trace.sentSize == r.trace.fillerSize
    ensures r.entered > 6 ==> env.pushed.Some?
    ensures r.entered == 6 && r.outcome.Failed? ==>
              FillerAt(env.filler) in r.fs && Some(r.fs[FillerAt(env.filler)].len) == r.trace.fillerSize
    ensures r.outcome.Finished? ==>
              env.pushed.Some? && GetFreeSpace(env.pushed.value, id) == Success(r.outcome.remainingFree)
    ensures r.outcome.Finished? ==>
              && (FillerAt(env.filler) !in r.fs <==> env.confirmDelete == Some(true))
              && forall q :: q in env.fs && q != FillerAt(env.filler) ==> q in r.fs && r.fs[q] == env.fs[q]
    // and no file other than the filler appears; a filler that is kept is whole
    ensures r.outcome.Finished? ==> r.fs.Keys <= env.fs.Keys + {FillerAt(env.filler)}
    ensures r.outcome.Finished? && env.confirmDelete == Some(false) ==>
              FillerAt(env.filler) in r.fs && Some(r.fs[FillerAt(env.filler)].len) == r.trace.fillerSize
  {
    var t2 := Drive.Trace(Some(id), Some(free), None, None, None, None);
    var created := CreateFillerFile(free, env.filler, env.fs);
    match created.result
    case Failure(e) => Drive.RunResult(4, Drive.Failed(e), created.fs, t2)
    case Success(filler) =>
      var fs1 := created.fs;
      var t3 := t2.(fillerSize := Some(filler.size));
      match Canonicalize(env.filler.cwd, fs1, filler.path, env.canonicalizeFails)
      case Failure(e) => Drive.RunResult(5, Drive.Failed(e), fs1, t3)
      case Success(path) =>
        PushAndReport(env, id, fs1, path, t3)
  }

  /** `run`: the steps of `Order`, each fed by the earlier ones, ending at the
      first failure. The free space it reports is a new property read made
      after the delete prompt, with no refresh before it. */
  function Run(env: Env): (r: Drive.RunResult<ObjectId>)
    requires IsAbsolute(env.filler.cwd)
    ensures Drive.WellFormed(r, Order)
    // with no device attached the run stops at the first step
    ensures env.enumerated == Some([]) ==> r.entered == 1 && r.outcome == Drive.Failed(NoDevicesAttached)
    // every step that addresses a storage addresses the one picked on the opened device
    ensures r.trace.storage.Some? ==>
              && SelectDevice(env.enumerated, env.deviceChoice).Success?
              && SelectStorage(SelectDevice(env.enumerated, env.deviceChoice).value, env.storageChoice)
                   == Success(r.trace.storage.value)
    ensures r.trace.sentTo.Some? ==> r.trace.sentTo == r.trace.storage
    ensures r.trace.requeried.Some? ==> r.trace.requeried == r.trace.storage
    // the filler is sized from the free space just read for that storage
    ensures r.trace.freeBefore.Some? ==>
              && r.trace.storage.Some?
              && GetFreeSpace(env.atRead, r.trace.storage.value) == Success(r.trace.freeBefore.value)
    ensures r.trace.fillerSize.Some? ==>
              && r.trace.freeBefore.Some? && r.trace.freeBefore.value <= U64_MAX
              && PromptDesired(r.trace.freeBefore.value, env.filler.entries).Success?
              && r.trace.fillerSize.value + PromptDesired(r.trace.freeBefore.value, env.filler.entries).value
                   == r.trace.freeBefore.value
              && 0 < r.trace.fillerSize.value
              && r.trace.fillerSize.value + BUFFER_SIZE <= r.trace.freeBefore.value
    // the file pushed is as long as the filler
    ensures r.trace.sentSize.Some? ==> r.trace.sentSize == r.trace.fillerSize
    // the delete prompt comes only after the push succeeded
    ensures r.entered > 6 ==> env.pushed.Some?
    // a failed push ends the run with the filler still on disk, at full length
    ensures r.entered == 6 && r.outcome.Failed? ==>
              FillerAt(env.filler) in r.fs && Some(r.fs[FillerAt(env.filler)].len) == r.trace.fillerSize
    // the reported free space is a fresh read of the device after the push
    ensures r.outcome.Finished? ==>
              && env.pushed.Some? && r.trace.storage.Some?
              && GetFreeSpace(env.pushed.value, r.trace.storage.value) == Success(r.outcome.remainingFree)
    // the filler is gone exactly when deletion was confirmed; nothing else changes
    ensures r.outcome.Finished? ==>
              && (FillerAt(env.filler) !in r.fs <==> env.confirmDelete == Some(true))
              && forall q :: q in env.fs && q != FillerAt(env.filler) ==> q in r.fs && r.fs[q] == env.fs[q]
    // and no file other than the filler appears; a filler that is kept is whole
    ensures r.outcome.Finished? ==> r.fs.Keys <= env.fs.Keys + {FillerAt(env.filler)}
    ensures r.outcome.Finished? && env.confirmDelete == Some(false) ==>
              FillerAt(env.filler) in r.fs && Some(r.fs[FillerAt(env.filler)].len) == r.trace.fillerSize
  {
    var t0 := Drive.Trace(None, None, None, None, None, None);
    match SelectDevice(env.enumerated, env.deviceChoice)
    case Failure(e) => Drive.RunResult(1, Drive.Failed(e), env.fs, t0)
    case Success(device) =>
      match SelectStorage(device, env.storageChoice)
      case Failure(e) => Drive.RunResult(2, Drive.Failed(e), env.fs, t0)
      case Success(id) =>
        var t1 := t0.(storage := Some(id));
        match GetFreeSpace(env.atRead, id)
        case Failure(e) => Drive.RunResult(3, Drive.Failed(e), env.fs, t1)
        case Success(free) => FillAndReport(env, id, free)
  }

  /** `run` as the source writes it, a chain of `?`, cut after the step at
      position `k` of `Order`: it succeeds exactly when every step up to
      that one succeeds on what the steps before it returned, and otherwise
      fails with the error of the first step that fails. */
  function Chain(env: Env, k: nat): Result<(), Error>
    requires IsAbsolute(env.filler.cwd) && k < |Order|
  {
    var device :- SelectDevice(env.enumerated, env.deviceChoice);
    if k == 0 then Success(()) else
    var id :- SelectStorage(device, env.storageChoice);
    if k == 1 then Success(()) else
    var free :- GetFreeSpace(env.atRead, id);
    if k == 2 then Success(()) else
    FillChain(env, id, free, k)
  }

  /** The chain from the filler's creation on. */
  function FillChain(env: Env, id: ObjectId, free: u64, k: nat): Result<(), Error>
    requires IsAbsolute(env.filler.cwd) && 3 <= k < |Order|
  {
    var created := CreateFillerFile(free, env.filler, env.fs);
    var filler :- created.result;
    if k == 3 then Success(()) else
    var path :- Canonicalize(env.filler.cwd, created.fs, filler.path, env.canonicalizeFails);
    if k == 4 then Success(()) else
    PushChain(env, id, created.fs, path, k)
  }

  /** The chain from the push on. */
  function PushChain(env: Env, id: ObjectId, fs1: Fs, path: Path, k: nat): Result<(), Error>
    requires 5 <= k < |Order|
  {
    var device2 :- SendFile(env.atPush, id, env.pushed);
    if k == 5 then Success(()) else
    var fs2 :- DeleteFillerFile(fs1, path, OrError(env.confirmDelete, Prompt), env.removeFails);
    if k == 6 then Success(()) else
    var remaining :- GetFreeSpace(device2, id);
    Success(())
  }

  /** From the push on, the run and the chain agree on every step, and on
      the error. */
  lemma PushFollowsChain(env: Env, id: ObjectId, fs1: Fs, path: Path, t: Drive.Trace<ObjectId>)
    requires path in fs1
    requires t.sentTo.None? && t.sentSize.None? && t.requeried.None?
    ensures var r := PushAndReport(env, id, fs1, path, t);
      && Drive.WellFormed(r, Order)
      && (forall k :: 5 <= k < |Order| ==>
            (Drive.Succeeded(r, Order, k) <==> PushChain(env, id, fs1, path, k).Success?))
      && (r.outcome.Failed? ==> PushChain(env, id, fs1, path, r.entered - 1) == Failure(r.outcome.error))
  {
    var r := PushAndReport(env, id, fs1, path, t);
    if SendFile(env.atPush, id, env.pushed).Success? {
      if DeleteFillerFile(fs1, path, OrError(env.confirmDelete, Prompt), env.removeFails).Success? {
        assert r.entered == 8;
      } else {
        assert r.entered == 7;
      }
    } else {
      assert r.entered == 6;
    }
  }

  /** From the filler on, the run and the chain agree on every step, and on
      the error. */
  lemma FillFollowsChain(env: Env, id: ObjectId, free: u64)
    requires IsAbsolute(env.filler.cwd)
    ensures var r := FillAndReport(env, id, free);
      && Drive.WellFormed(r, Order)
      && (forall k :: 3 <= k < |Order| ==>
            (Drive.Succeeded(r, Order, k) <==> FillChain(env, id, free, k).Success?))
      && (r.outcome.Failed? ==> FillChain(env, id, free, r.entered - 1) == Failure(r.outcome.error))
  {
    var r := FillAndReport(env, id, free);
    var created := CreateFillerFile(free, env.filler, env.fs);
    if created.result.Success? {
      var filler := created.result.value;
      var canonical := Canonicalize(env.filler.cwd, created.fs, filler.path, env.canonicalizeFails);
      if canonical.Success? {
        var t3 := Drive.Trace(Some(id), Some(free as nat), Some(filler.size), None, None, None);
        PushFollowsChain(env, id, created.fs, canonical.value, t3);
        forall k | 5 <= k < |Order|
          ensures FillChain(env, id, free, k) == PushChain(env, id, created.fs, canonical.value, k)
        {
        }
      } else {
        assert r.entered == 5;
      }
    } else {
      assert r.entered == 4;
    }
  }

  /** Up to the first free-space read, the run and the chain agree on every
      step; a run that stops there agrees with the chain on every later step
      too, and on the error. */
  lemma SelectionFollowsChain(env: Env)
    requires IsAbsolute(env.filler.cwd)
    ensures var r := Run(env);
      && (forall k :: 0 <= k < |Order| && (k < 3 || r.entered <= 3) ==>
            (Drive.Succeeded(r, Order, k) <==> Chain(env, k).Success?))
      && (r.outcome.Failed? && r.entered <= 3 ==> Chain(env, r.entered - 1) == Failure(r.outcome.error))
  {
    var r := Run(env);
    var device := SelectDevice(env.enumerated, env.deviceChoice);
    if device.Success? {
      var id := SelectStorage(device.value, env.storageChoice);
      if id.Success? {
        if GetFreeSpace(env.atRead, id.value).Success? {
          assert r.entered > 3;
        } else {
          assert r.entered == 3;
        }
      } else {
        assert r.entered == 2;
      }
    } else {
      assert r.entered == 1;
    }
  }

  /** Once the free space has been read, the run and the chain agree on
      every later step, and on the error. */
  lemma LateFollowsChain(env: Env, device: Device, id: ObjectId, free: u64)
    requires IsAbsolute(env.filler.cwd)
    requires SelectDevice(env.enumerated, env.deviceChoice) == Success(device)
    requires SelectStorage(device, env.storageChoice) == Success(id)
    requires GetFreeSpace(env.atRead, id) == Success(free)
    ensures var r := Run(env);
      && (forall k :: 3 <= k < |Order| ==> (Drive.Succeeded(r, Order, k) <==> Chain(env, k).Success?))
      && (r.outcome.Failed? ==> Chain(env, r.entered - 1) == Failure(r.outcome.error))
  {
    FillFollowsChain(env, id, free);
    assert Run(env) == FillAndReport(env, id, free);
    forall k | 3 <= k < |Order|
      ensures Chain(env, k) == FillChain(env, id, free, k)
    {
    }
  }

  /** The run gets exactly as far as the chain of `?` does: a step succeeds
      in the run exactly when the chain up to it succeeds, so the run enters
      a step exactly when every step before it succeeded, and a failed run
      carries the error of the first step that failed. */
  lemma RunFollowsChain(env: Env)
    requires IsAbsolute(env.filler.cwd)
    ensures var r := Run(env);
      forall k :: 0 <= k < |Order| ==> (Drive.Succeeded(r, Order, k) <==> Chain(env, k).Success?)
    ensures var r := Run(env);
      r.outcome.Failed? ==> Chain(env, r.entered - 1) == Failure(r.outcome.error)
  {
    SelectionFollowsChain(env);
    var device := SelectDevice(env.enumerated, env.deviceChoice);
    if device.Success? {
      var id := SelectStorage(device.value, env.storageChoice);
      if id.Success? {
        var free := GetFreeSpace(env.atRead, id.value);
        if free.Success? {
          LateFollowsChain(env, device.value, id.value, free.value);
        }
      }
    }
  }

  /** A run that stopped at the push reaches none of the steps after it. */
  lemma StopsAtPush(r: Drive.RunResult<ObjectId>)
    requires Drive.WellFormed(r, Order) && r.entered == 6
    ensures r.outcome.Failed? && Drive.FailingStep(r, Order) == Drive.SendFile
    ensures !Drive.Reached(r, Order, Drive.DeleteFiller)
    ensures !Drive.Reached(r, Order, Drive.ReadRemainingFreeSpace)
  {
    assert Drive.Steps(r, Order) == Order[..6];
  }

  /** There is no cleanup path: a run that enters the push and whose push
      fails stops there, never reaches the delete prompt or anything after
      it, and leaves the filler on disk at full length. */
  lemma FailedPushSkipsDelete(env: Env)
    requires IsAbsolute(env.filler.cwd)
    requires env.pushed.None?
    ensures var r := Run(env); r.entered >= 6 ==>
      && r.entered == 6 && r.outcome.Failed? && Drive.FailingStep(r, Order) == Drive.SendFile
      && !Drive.Reached(r, Order, Drive.DeleteFiller)
      && !Drive.Reached(r, Order, Drive.ReadRemainingFreeSpace)
      && FillerAt(env.filler) in r.fs && Some(r.fs[FillerAt(env.filler)].len) == r.trace.fillerSize
  {
    var r := Run(env);
    if r.entered >= 6 {
      StopsAtPush(r);
    }
  }

  /** A device with one storage `s1` of 2,000,000,000 bytes whose
      free-space property reads `free`. */
  function SampleDevice(free: u64): Device {
    var properties := map[StorageCapacity := Text(Render(2_000_000_000)), StorageFreeSpace := Text(Render(free))];
    Device(true, Some(["s1"]), map["s1" := Object("Internal storage", properties)])
  }

  /** The sample run's surroundings: 1,000,000,000 bytes free, the same
      figure at every read before the push, 900,000,000 to be left, a push
      after which the device reads 899,998,000 free, and a
      confirmed deletion. */
  function SampleEnv(): Env {
    Env(Some([DeviceInfo("phone", Some(SampleDevice(1_000_000_000)))]), Some(0), Some(0),
        SampleDevice(1_000_000_000),
        FillerEnv([Typed(Some(900_000_000))], U64_MAX, "token", [RootDir, Normal(Unicode("work"))], false, None, 0, Some(0)),
        map[], false, SampleDevice(1_000_000_000), Some(SampleDevice(899_998_000)), Some(true), false)
  }

  /** The sample run's first three steps: the one device opens, its one
      storage is listed and picked, and its free space reads 1,000,000,000. */
  lemma SampleSelection()
    ensures var env := SampleEnv();
      var device := SampleDevice(1_000_000_000);
      && SelectDevice(env.enumerated, env.deviceChoice) == Success(device)
      && SelectStorage(device, env.storageChoice) == Success("s1")
      && GetFreeSpace(env.atRead, "s1") == Success(1_000_000_000)
  {
    var env := SampleEnv();
    var device := SampleDevice(1_000_000_000);
    assert SelectDevice(env.enumerated, env.deviceChoice) == Success(device);
    PropertyRoundTrip(device, "s1", StorageCapacity, 2_000_000_000);
    PropertyRoundTrip(device, "s1", StorageFreeSpace, 1_000_000_000);
    assert AllListable(device, ["s1"]);
    assert SelectStorage(device, Some(0)) == Success("s1");
  }

  /** The sample run from the filler on: a filler of 100,000,000 bytes is
      created, pushed in full and deleted, and the device then reads
      899,998,000 free. */
  lemma SampleFill()
    ensures var r := FillAndReport(SampleEnv(), "s1", 1_000_000_000);
      && r.outcome == Drive.Finished(899_998_000)
      && r.trace.fillerSize == Some(100_000_000)
      && r.trace.sentSize == Some(100_000_000)
      && r.fs == map[]
  {
    PropertyRoundTrip(SampleDevice(899_998_000), "s1", StorageFreeSpace, 899_998_000);
  }

  /** The sample run creates a filler of 100,000,000 bytes, pushes all of
      it, deletes it locally, and reports the device's figure rather than the
      requested 900,000,000. */
  lemma SampleRun()
    ensures var r := Run(SampleEnv());
      && r.outcome == Drive.Finished(899_998_000)
      && r.trace.fillerSize == Some(100_000_000)
      && r.trace.sentSize == Some(100_000_000)
      && r.fs == map[]
  {
    SampleSelection();
    SampleFill();
  }
}
